=== FILE: README.md ===
# Concatenated file access (VLC `modules/access/file.c`), modelled in Dafny

The file access of VLC joins one or more local files into one logical byte
stream. It has one size, one position and one end-of-file flag. The files
are the path the access was opened with ("-" stands for standard input),
then every comma-separated name of the `file-cat` list. Each name may start
with `~/` for the home directory.

The state the access keeps is this:

- `access_sys_t` holds one descriptor and one recorded size per file (`filev`, `sizev`, `filec`), the active file `filep`, the read counter `i_nb_reads`, and the flags `b_seekable`, `b_pace_control` and `b_kfir`.
- The stream fields `info.i_size`, `info.i_pos`, `info.b_eof` and `info.i_update` complete it.

The model has six modules, one per file:

- `posix.dfy`, module `Posix`. The operating system as the access sees it.
  - Files (inodes) have a kind, contents, and the size fstat reports, kept apart from the contents. A character device, a pipe or standard input may report a size that is not its length. fstat or read on a file may fail.
  - A name space maps paths to files, and there is a standard input.
  - A descriptor table gives each descriptor its file and offset.
  - `Kernel` is a class with `open`, `dup(0)`, `fstat`, `read`, `lseek` and `close` as methods that update the table in place.
- `catlist.dfy`, module `CatList`. String handling:
  - `strchr` for a comma;
  - the fields of the `file-cat` list;
  - the loop that counts the files;
  - `expand_path`;
  - `strcasecmp`.
- `layout.dfy`, module `Layout`. The sum of the per-file sizes and the seek translation from a logical offset to a file and an offset inside it.
- `stream.dfy`, module `StreamModel`. The access as a value: a `Stream` datatype holding the per-file handles and sizes and the stream fields.
  - `Open`, `Read` and `Seek` are defined as functions of that value.
  - The properties of the access are proved about them, together with the two findings below.
- `control.dfy`, module `AccessControl`. The `Control` query table, as a function.
- `access.dfy`, module `FileAccess`. The access itself, as the class `Access`.
  - Its fields are those of `access_sys_t` and the stream fields. `filev` and `sizev` are arrays.
  - `Open` (with its loop over the files), `Close`, `Read` (with its re-entry on end of file) and `Seek` (with its translation loop) are methods that update the fields and the kernel's descriptor table in place.
  - Each method is proved to do what the matching `StreamModel` function does, seen through `View()`. `Open` is also proved to leave the descriptor table as it found it when it fails, and to add only the access's own descriptors when it succeeds. `Read` and `Seek` are proved to open and close no descriptor and to change none but the access's own.

The messages of Seek, "seeking too far" (line 415) and "seeking too early" (line 420), say that it clamps the *requested* offset into `[0, i_size]`. The code instead tests the position the stream had before the seek. The model follows the code, and the difference is the first finding below.

Read as written is proved to deliver the concatenation without a gap from the stream Open gives, read after read of a positive length, as long as every file after the active one is still at its start. A seek back breaks that condition, which is the second finding below. A read of length 0 breaks it too: read() returns 0 on every file, so Read makes the last file active and raises end of file without moving the position.

## Model

| member | source | states |
|---|---|---|
| Posix.ReadAt | modules/access/file.c:347 | read() on a descriptor at an offset: a negative count exactly when the file fails to read; otherwise the bytes at the offset, at most `len` of them; 0 exactly at or past the end (or for `len` 0); all `len` bytes when that many remain |
| Posix.StatOf | modules/access/file.c:236 | fstat() fails exactly when the file's stat fails; otherwise it reports the file's kind and the size recorded for it (`st_size`), which need not be the length of its contents |
| Posix.Seeked | modules/access/file.c:438 | lseek(SEEK_SET) moves the descriptor to a non-negative offset; it leaves the descriptor where it was for a negative offset and on a pipe or socket (ESPIPE); it stays on the same file |
| CatList.FieldsFrom | modules/access/file.c:220-228 | the fields of the list from an index on; its own contract states only that there is at least one field (FieldsShape and JoinFields state the rest) |
| CatList.Strchr | modules/access/file.c:180 | `strchr(s, ',')` from an index: the first comma at or after it with no comma in between, or none when the rest holds no comma |
| CatList.FieldsShape | modules/access/file.c:220-228 | a list with n commas splits into n + 1 fields, and no field holds a comma |
| CatList.JoinFields | modules/access/file.c:222-228 | the fields, joined back with commas, are exactly the list: cutting at each comma loses and reorders nothing |
| CatList.CountFiles | modules/access/file.c:176-184 | the counting loop gives 1 file for an empty list and 2 plus the number of commas otherwise |
| CatList.ExpandPath | modules/access/file.c:499-509 | a path starting with `~/` becomes the home directory, a `/`, and the rest of the path; any other path is kept as it is |
| CatList.ExpandPathIdempotent | modules/access/file.c:499-520 | expanding an already expanded name changes it no further, for any home directory that does not itself start with `~/` (a home of `~` included) |
| Layout.Walk | modules/access/file.c:431-435 | the translation loop from file i; its own contract states only that a spot it finds is at or after file i and within that file's size (WalkCorrect states the rest) |
| Layout.Locate | modules/access/file.c:428-436 | the translation from file 0; its own contract states only that a spot it finds names a file (LocateCorrect states the rest) |
| Layout.SumUpdate | modules/access/file.c:381-382 | replacing the size of one file moves the total by exactly the difference between the new and old size |
| Layout.SumZero | modules/access/file.c:275 | non-negative sizes add up to 0 exactly when every file is empty |
| Layout.WalkCorrect | modules/access/file.c:431-435 | the translation loop from file i, with what is left of the offset after the files before i: it stops at the first file whose end reaches the offset, with the rest of the offset inside it, and it steps past the last file exactly when the offset lies beyond the total |
| Layout.LocateCorrect | modules/access/file.c:428-436 | seek translation from file 0: fails exactly for an offset past the total; otherwise gives a file and a local offset no larger than that file's size that add up to the offset, the file being the first one that reaches it; the local offset is non-negative for a non-negative offset and positive past file 0 |
| Layout.LocateBoundary | modules/access/file.c:431 | an offset exactly at the end of a non-empty file stays in that file at local offset equal to its size (the loop compares with `>`) |
| StreamModel.RefreshKeepsSum | modules/access/file.c:378-384 | the periodic refresh keeps `i_size` equal to the sum of the recorded sizes |
| StreamModel.RefreshBookkeeping | modules/access/file.c:376-384 | the refresh moves `i_size` by exactly the change of the active file's size; it records the size fstat reports for the active file and changes no other file's size; a failing fstat changes nothing; position, end of file and counter are untouched |
| StreamModel.RefreshFlags | modules/access/file.c:379-383 | `INPUT_UPDATE_SIZE` is added to `i_update` exactly when a recorded size changed, and `i_update` is otherwise kept |
| StreamModel.RefreshIdempotent | modules/access/file.c:378-379 | a second refresh of the same file finds nothing to change |
| StreamModel.Refresh | modules/access/file.c:371-386 | the periodic fstat of the active file; its own contract states only that the shape, the active file and the descriptors are kept (RefreshKeepsSum, RefreshBookkeeping, RefreshFlags and RefreshIdempotent state the rest) |
| StreamModel.Count | modules/access/file.c:369-386 | the counter grows by one modulo 2^32; the shape, the active file and the descriptors are kept; unless `i_size` is not 0 and the new counter is a multiple of `INPUT_FSTAT_NB_READS`, the sizes, `i_size` and `i_update` are unchanged; when the refresh is due and fstat succeeds, the active file's recorded size becomes the size fstat reports |
| StreamModel.Invoke | modules/access/file.c:347-386 | one entry into Read up to the end-of-file test: the active file stays, position and end of file stay, the counter grows by one modulo 2^32, and the flags stay |
| StreamModel.Read | modules/access/file.c:305-404 | Read as written; its own contract states only that the shape is kept (ReadKeepsSum, ReadRefreshes, ReadCounter, ReadPosition and ReadData state the rest) |
| StreamModel.ReadKeepsSum | modules/access/file.c:371-396 | Read, through every file switch and refresh, keeps `i_size` equal to the sum of the recorded sizes |
| StreamModel.ReadKeepsSumSwitch | modules/access/file.c:388-393 | at the end of a file that is not the last, the read() and refresh keep `i_size` the sum of the sizes, and so does the re-entry on the next file |
| StreamModel.ReadCounter | modules/access/file.c:369-393 | Read adds one to `i_nb_reads`, modulo 2^32, for itself and one more for each re-entry after a file switch |
| StreamModel.ReadCounterSwitch | modules/access/file.c:388-393 | at the end of a file that is not the last, the re-entry counts one more read for the switch, so the counter still grows by one per entry |
| StreamModel.ReadRefreshes | modules/access/file.c:369-393 | Read changes only the recorded sizes of the files from the active one to the one it ends on, each to the size fstat reports for that file, and raises `INPUT_UPDATE_SIZE` in `i_update` exactly when some recorded size changed |
| StreamModel.ReadRefreshesSwitch | modules/access/file.c:388-393 | the switch case of ReadRefreshes: the active file's refresh, then those of the re-entry on the next file |
| StreamModel.ReadRefreshesStay | modules/access/file.c:369-386 | the case of ReadRefreshes where Read stays in the active file: its one refresh |
| StreamModel.InvokeRefreshes | modules/access/file.c:369-386 | one entry into Read changes at most the active file's recorded size, to the size fstat reports, and raises `INPUT_UPDATE_SIZE` exactly when it changed |
| StreamModel.ReadPosition | modules/access/file.c:388-401 | the active file only moves forward; a zero count is returned only on the last file; the position grows by exactly a positive count and is otherwise unchanged; end of file is set exactly when the count is 0; the flags are kept |
| StreamModel.ReadData | modules/access/file.c:347-396 | Read returns what read() returns on the first file, from the active one on, that does not report end of file (or on the last file); every file it passed reported end of file; only the descriptor that was read moves, by the count |
| StreamModel.Seek | modules/access/file.c:409-440 | Seek as written always clears end of file and keeps the shape, the sizes, `i_size`, `i_update`, the counter and the capability flags (SeekToCorrect, SeekTrustsRequest and SeekClampsPrevious state where it goes) |
| StreamModel.SeekToCorrect | modules/access/file.c:424-438 | moving to an offset sets the position to it and clears end of file; it keeps the sizes; it completes exactly when the offset is at most the total; on completion at a non-negative offset the active file and its descriptor's offset add up to the offset, within the file's size, unless that file is a pipe or socket, whose descriptor stays where it was; other descriptors are untouched; nothing but the position, end of file, the active file and the descriptors changes, and on failure only the position and end of file change |
| StreamModel.SeekTrustsRequest | modules/access/file.c:413-424 | as written, from a position inside the stream every request is taken as it is: the new position is the request, even a negative one, and the seek completes exactly when the request is at most the total |
| StreamModel.SeekClampsPrevious | modules/access/file.c:413-422 | as written, a previous position out of range replaces the request with 0 or the total, whatever the request, and the seek then completes |
| StreamModel.SeekClampedCorrect | modules/access/file.c:413-425 | with the request itself clamped, a seek always completes at a position in [0, total]; that position is the request when it is in range, 0 below, and the total above; the active file and its offset add up to it unless that file is a pipe or socket |
| StreamModel.FirstUnusable | modules/access/file.c:234-256 | the first file, from an index on, that did not open, failed fstat or is a directory, with every file before it usable; none exactly when all are usable |
| StreamModel.FileNamesShape | modules/access/file.c:176-229 | the files to open are the path, then one per comma-separated field of a non-empty list: 1 file, or 2 plus the number of commas; the fields joined with commas give the list, and no field holds a comma |
| StreamModel.Open | modules/access/file.c:134-284 | Open as written: a stream it gives is consistent, has one file per name, and starts at position 0 in file 0 without end of file; a refusal names a file index in range (OpenRefusal, OpenedStream, OpenedFlags and OpenEmpty state the rest) |
| StreamModel.OpenRefusal | modules/access/file.c:234-256 | Open refuses exactly when some file cannot be used, and then at the first such file, all files before it having been usable |
| StreamModel.OpenedStream | modules/access/file.c:145-281 | a stream Open gives has one descriptor per file, at offset 0 on the file its name refers to; each recorded size is the size fstat reports for that file and `i_size` is their sum; position 0, no end of file, no update flag, no reads; never seekable and empty |
| StreamModel.OpenedFlags | modules/access/file.c:151-266 | "stream" and "kfir", in any case, turn off seeking and pace control and only "kfir" sets `b_kfir`; any other access name gives pace control, and seeking unless some file is not regular, not a block device and not a non-empty character device |
| StreamModel.OpenEmpty | modules/access/file.c:275-281 | Open refuses an empty stream exactly when every file is usable and fstat reports size 0 for each, the access name is neither "stream" nor "kfir", and every file keeps the stream seekable |
| StreamModel.RewindingReadIsContiguous | modules/access/file.c:388-396 | with the next file rewound at the switch, Read of a positive length from any state that follows its files returns exactly the bytes of the concatenation from the position on; the count is 0 exactly at the end of the stream, where end of file is set |
| StreamModel.ReadIsRewinding | modules/access/file.c:388-393 | while every file after the active one is at offset 0, Read as written equals the rewinding Read: the missing lseek would find the descriptor already at 0 |
| StreamModel.ReadIsRewindingSwitch | modules/access/file.c:388-393 | at a switch to a next file at offset 0, Read as written and the rewinding Read continue identically |
| StreamModel.ReadKeepsRewound | modules/access/file.c:388-393 | Read as written keeps every file after the active one at offset 0 |
| StreamModel.ReadKeepsRewoundSwitch | modules/access/file.c:388-393 | at a switch, the files after the next one are still at offset 0 after the re-entry |
| StreamModel.OpenedInSync | modules/access/file.c:257-284 | a stream Open gives follows its files and has every file after the first at offset 0, whenever each file holds as many bytes as fstat reports and none fails to read |
| StreamModel.ReadIsContiguous | modules/access/file.c:305-404 | Read as written of a positive length, from a state that follows its files with every later file at offset 0 (as Open leaves it), returns exactly the bytes of the concatenation from the position on, 0 exactly at the end with end of file set, and keeps that condition for the next read |
| StreamModel.ZeroLengthReadEndsStream | modules/access/file.c:347-401 | a read of length 0, when no file from the active one on fails to read, returns 0 and no bytes, makes the last file active and raises end of file, with the position unchanged |
| StreamModel.PairZeroLengthRead | modules/access/file.c:347-401 | on files "AAA" and "BBB" at their start, a read of length 0 leaves "BBB" active with end of file raised at position 0 |
| StreamModel.PairReadAfterZeroLength | modules/access/file.c:347-401 | the read of 3 bytes that follows gives "BBB" for position 0, where the concatenation holds "AAA" |
| StreamModel.StaleOffsetEndsStreamEarly | modules/access/file.c:388-396 | as written, on files "AAA" and "BBB": reading to the end, seeking to 0 and reading again gives "AAA" and then end of file at position 3 of 6; the rewinding read gives "BBB" from the same state |
| AccessControl.Control | modules/access/file.c:445-496 | the query table: the answer is a flag exactly for the two seek and the two pace queries, and a transfer unit exactly for the MTU query, where it is 0 |
| AccessControl.ControlSupported | modules/access/file.c:452-495 | Control succeeds exactly for the seek, pace, MTU, delay and pause-state queries; a refused query writes nothing; only the pause-state query succeeds without an answer |
| AccessControl.ControlAnswersAgree | modules/access/file.c:455-476 | both seek queries answer `b_seekable`, both pace queries answer `b_pace_control`, each pair agrees and ignores the other flag; the delay is the caching setting times 1000 |
| AccessControl.ControlAfterOpen | modules/access/file.c:455-465 | on a stream Open gave, an access that answers it can seek also answers it controls the pace; "stream" and "kfir" answer neither |
| FileAccess.NextName | modules/access/file.c:209-229 | the name file i is opened with is the path for file 0 and the i-th field of the list for the others, and the next name starts past the comma ending this one |
| FileAccess.Access.OpenNamed | modules/access/file.c:526-577 | open_file opens the file the `~/`-expanded name refers to, at offset 0 on a new descriptor, or gives -1 and opens nothing when no file has that name |
| FileAccess.Access.OpenChecked | modules/access/file.c:207-247 | the descriptor for file i (dup of standard input for "-") is -1 exactly when the file cannot be used; then the descriptor table is as before; otherwise a new descriptor at offset 0 on the file, with its stat |
| FileAccess.Access.Keep | modules/access/file.c:257-266 | file i's descriptor and size are recorded after those of the files before it, `i_size` becomes the sum of the recorded sizes, and `b_seekable` is lost when the file cannot seek; the slots of the later files and the other fields are unchanged |
| FileAccess.Access.OpenNext | modules/access/file.c:207-266 | one file of Open: succeeds exactly when the file can be used, and then the files up to it are open and kept with their sizes summed; otherwise nothing is kept and no descriptor is left open |
| FileAccess.Access.OpenStep | modules/access/file.c:205-271 | one turn of Open's loop: it keeps file i and finds the next name, or closes every descriptor it opened, leaving the table as it was, at the first file that cannot be used |
| FileAccess.Access.OpenFiles | modules/access/file.c:203-271 | the loop over the files: all files kept when every file is usable; otherwise the descriptor table is back to what it was before Open |
| FileAccess.Access.CloseOpened | modules/access/file.c:250-256 | giving up after i files closes exactly the i descriptors opened, leaving the descriptor table as it was before Open |
| FileAccess.Access.Reset | modules/access/file.c:145-166 | the stream fields cleared, and the seekable, pace and kfir flags the access name selects |
| FileAccess.Access.Allocate | modules/access/file.c:176-201 | one descriptor slot and one size slot for each file to open |
| FileAccess.Access.Open | modules/access/file.c:134-284 | Open succeeds exactly when the stream model opens, and the access is then that stream; on success every descriptor open before is still open and unchanged, and the only new ones are the access's own; on failure the descriptor table is as it was |
| FileAccess.Access.Close | modules/access/file.c:289-300 | closes exactly the descriptors of the first `filec` files and nothing else |
| FileAccess.Access.Transfer | modules/access/file.c:347 | read() on the active descriptor gives what the model's read() gives; no descriptor is opened or closed, and every descriptor that is not the access's own is unchanged |
| FileAccess.Access.Count | modules/access/file.c:369-386 | the counter and the periodic refresh, as in the model |
| FileAccess.Access.RefreshSize | modules/access/file.c:371-386 | the refresh, as in the model |
| FileAccess.Access.Resize | modules/access/file.c:381-383 | a new size of the active file: `i_size` moves by the change, the size is recorded, and `INPUT_UPDATE_SIZE` is raised; nothing else changes |
| FileAccess.Access.ReadOnce | modules/access/file.c:309-386 | one entry into Read up to the end-of-file test, as in the model; no descriptor is opened or closed, and every descriptor that is not the access's own is unchanged |
| FileAccess.Access.Advance | modules/access/file.c:391 | the next file becomes the active one, and nothing else changes |
| FileAccess.Access.NextFile | modules/access/file.c:389-393 | after a zero count on a file that is not the last, the next file is active and reading on gives what Read from the state before the read() gives |
| FileAccess.Access.Account | modules/access/file.c:398-403 | a positive count moves the position, a zero count sets end of file; the outcome is Read's |
| FileAccess.Access.Read | modules/access/file.c:305-404 | Read, with its re-entry on end of file, gives exactly the model's Read; it leaves the files and names alone, opens and closes no descriptor, and leaves every descriptor that is not the access's own unchanged |
| FileAccess.Access.Translate | modules/access/file.c:427-435 | the translation loop over `sizev` gives the model's translation of the offset, or none where the C assertion fires |
| FileAccess.Access.SetPosition | modules/access/file.c:424-425 | the position is set and end of file cleared |
| FileAccess.Access.Activate | modules/access/file.c:436-438 | the file found becomes active and its descriptor is lseek'ed to the offset inside it; every descriptor that is not the access's own is unchanged |
| FileAccess.Access.Seek | modules/access/file.c:409-440 | Seek, with the clamp of the previous position and the translation loop, gives exactly the model's Seek; it leaves the files and names alone, opens and closes no descriptor, and leaves every descriptor that is not the access's own unchanged |

## Left out

- The `poll()` wait for data (with its `b_die` check) and the kfir loop that retries a zero read after `msleep` are not modelled (lines 312-343). Every mode does the single `read()` of the pace-controlled path.
- FileAccess.Access.Read: in "stream" mode the access first waits in `poll()` until data or end of file is ready (lines 317-330), then reads once, and a zero count there is end of file as modelled. What is missing is the wait, and the exit when the access is asked to stop (`b_die`, lines 321-322), which returns 0 without counting the read, switching files or setting end of file.
- FileAccess.Access.Read: in "kfir" mode the access retries a zero read after `msleep` until data comes or it is asked to stop (lines 337-341). The model takes the first zero read as end of file instead.
- The errno classification, error messages, `intf_UserFatal` and the `msleep` after a failed read are not modelled. They change nothing in the access's state.
- `var_Create`, `var_CreateGetString` and `var_GetInteger` are configuration plumbing. The access name, the `file-cat` list, the caching delay and the home directory are parameters.
- The `VLC_ENOMEM` return for a missing `file-cat` variable is not modelled, and neither are allocation failures in `calloc`, `asprintf` or `strdup`.
- `ToLocale`/`LocaleFree` are not modelled, so a name that cannot be converted is not a failure case. The `fcntl` read-ahead hints and the `O_NONBLOCK` flag are not modelled either.
- The WIN32 and UNDER_CE branches are not modelled, nor the build without `sys/stat.h` (lines 267-269).
- lseek on a character device succeeds in the model. Devices that refuse it are not told apart.
- Descriptor numbers: `open` and `dup(0)` hand out ever-increasing numbers, where POSIX gives the lowest free one, and `dup(0)` cannot fail, where it fails when descriptor 0 is closed. The access does not depend on the numbers; the proof that Open's failure restores the table uses the increasing numbering.
- `dup(0)` gives a new descriptor at offset 0 on standard input's file. The offset it shares with descriptor 0 is not modelled.
- Close frees `filev`, `sizev` and `p_sys`. That is not modelled: there is no memory model, and the model closes the descriptors only.
- The kernel's files do not change while the access is open, because writes by other processes are not modelled.
  - The periodic refresh is still modelled for any recorded size.
  - Its bookkeeping lemmas hold whatever size fstat reports.
- Sizes and positions (`int64_t`) are unbounded integers. `i_len` is a natural number; a negative length is not modelled. `i_nb_reads` wraps modulo 2^32 explicitly.
- `INPUT_FSTAT_NB_READS` (10) and `INPUT_UPDATE_SIZE` (1) come from a VLC header that is not part of this model.
- Seek returns `VLC_SUCCESS` in every case. The model returns `completed` instead: false where the assertion of the translation loop fires, which aborts the program (or reads beyond `sizev` without assertions).
- StreamModel.ReadIsContiguous and StreamModel.RewindingReadIsContiguous: promised for a positive length only. A read of length 0 returns 0 on every file, so Read as written passes to the last file and raises end of file without moving the position (ZeroLengthReadEndsStream). The next read then starts in the last file at a position that is not that file's place in the concatenation.
- Access.Seek and Access.Read follow the code as written. The corrected behaviours are defined and proved as values in `StreamModel` only.

## Findings

| source | as written | input that shows it | evidently intended | confidence | as-written member | corrected member |
|---|---|---|---|---|---|---|
| modules/access/file.c:413-424 | the clamp tests the previous `info.i_pos`, and the requested offset is then used unchecked | on a 6-byte stream at position 0, Seek(-5) leaves position -5 and lseek fails; Seek(100) runs the translation loop past the last file, where the assertion fires | clamp the requested offset into [0, `i_size`] | not executed | StreamModel.SeekTrustsRequest | StreamModel.SeekClampedCorrect |
| modules/access/file.c:388-393 | at a zero read, the next file becomes active and is read from wherever its descriptor stands | files "AAA" and "BBB": read 3 bytes three times (the third gives end of file), seek to 0, read 3 gives "AAA", and the next read gives 0 with end of file at position 3 of 6 | lseek the next file to 0 before reading it | not executed | StreamModel.StaleOffsetEndsStreamEarly | StreamModel.RewindingReadIsContiguous |

=== FILE: access.dfy ===
// The file access as VLC drives it: the fields of access_sys_t and the
// stream fields of access_t, updated in place by Open, Read, Seek and Close
// through the kernel's descriptors. Each method is proved to do what the
// matching function of StreamModel says, seen through View().

module FileAccess {
  import opened Posix
  import opened Layout
  import opened CatList
  import opened StreamModel
  import opened AccessControl

  /** The stream the descriptors give: for each one, the file it refers to and its offset. */
  function HandlesOf(fdv: seq<Fd>, fds: map<Fd, OpenFile>, inodes: seq<Inode>): (hs: seq<Handle>)
    requires forall j :: 0 <= j < |fdv| ==> fdv[j] in fds && fds[fdv[j]].ino < |inodes|
    ensures |hs| == |fdv|
  {
    seq(|fdv|, j requires 0 <= j < |fdv| => Handle(inodes[fds[fdv[j]].ino], fds[fdv[j]].offset))
  }

  /** Changing the entry of one of the descriptors changes that handle only. */
  lemma HandlesUpdate(fdv: seq<Fd>, fds: map<Fd, OpenFile>, inodes: seq<Inode>, p: nat, f: OpenFile)
    requires forall j :: 0 <= j < |fdv| ==> fdv[j] in fds && fds[fdv[j]].ino < |inodes|
    requires forall j, k :: 0 <= j < k < |fdv| ==> fdv[j] != fdv[k]
    requires p < |fdv| && f.ino < |inodes|
    ensures HandlesOf(fdv, fds[fdv[p] := f], inodes) == HandlesOf(fdv, fds, inodes)[p := Handle(inodes[f.ino], f.offset)]
  {
    var a := HandlesOf(fdv, fds[fdv[p] := f], inodes);
    var b := HandlesOf(fdv, fds, inodes)[p := Handle(inodes[f.ino], f.offset)];
    forall j | 0 <= j < |fdv|
      ensures a[j] == b[j]
    {
      if j != p {
        assert fdv[j] != fdv[p] by {
          if j < p {
          } else {
          }
        }
      }
    }
  }

  /**
   * `fdv` are descriptors on the first |fdv| files of `ts`, all opened since
   * the table was `base` (whose descriptors are below `baseNext`): each file
   * usable, its descriptor at offset 0, its size in `sizes`; no other
   * descriptor was opened.
   */
  ghost predicate OpenedFiles(fdv: seq<Fd>, sizes: seq<int>, ts: seq<Option<Inode>>, fds: map<Fd, OpenFile>,
                              inodes: seq<Inode>, base: map<Fd, OpenFile>, baseNext: Fd)
  {
    |fdv| == |sizes| <= |ts| &&
    (forall fd :: fd in base ==> fd < baseNext) &&
    (forall j :: 0 <= j < |fdv| ==>
       Usable(ts[j]) && baseNext <= fdv[j] && fdv[j] in fds && fds[fdv[j]].offset == 0 &&
       fds[fdv[j]].ino < |inodes| && inodes[fds[fdv[j]].ino] == ts[j].value && sizes[j] == ts[j].value.statSize) &&
    (forall j, k :: 0 <= j < k < |fdv| ==> fdv[j] < fdv[k]) &&
    (forall fd :: fd in base ==> fd in fds && fds[fd] == base[fd]) &&
    (forall fd :: fd in fds ==> fd in base || fd in fdv)
  }

  /** A descriptor opened past every open one, on the next file of `ts`, extends the files opened. */
  lemma OpenedExtend(fdv: seq<Fd>, sizes: seq<int>, ts: seq<Option<Inode>>, fds: map<Fd, OpenFile>,
                     inodes: seq<Inode>, base: map<Fd, OpenFile>, baseNext: Fd, fd: Fd, f: OpenFile)
    requires OpenedFiles(fdv, sizes, ts, fds, inodes, base, baseNext) && |fdv| < |ts|
    requires forall d :: d in fds ==> d < fd
    requires baseNext <= fd && f.offset == 0 && f.ino < |inodes|
    requires Usable(ts[|fdv|]) && inodes[f.ino] == ts[|fdv|].value
    ensures OpenedFiles(fdv + [fd], sizes + [ts[|fdv|].value.statSize], ts, fds[fd := f], inodes, base, baseNext)
  {
  }

  /** Closing every descriptor opened leaves the table as it was. */
  lemma OpenedRelease(fdv: seq<Fd>, sizes: seq<int>, ts: seq<Option<Inode>>, fds: map<Fd, OpenFile>,
                      inodes: seq<Inode>, base: map<Fd, OpenFile>, baseNext: Fd)
    requires OpenedFiles(fdv, sizes, ts, fds, inodes, base, baseNext)
    ensures fds - (set fd | fd in fdv) == base
  {
    var r := fds - (set fd | fd in fdv);
    forall fd | fd in base
      ensures fd in r && r[fd] == base[fd]
    {
      // every descriptor opened is at or past `baseNext`
      assert fd !in fdv;
    }
    forall fd | fd in r
      ensures fd in base
    {
      assert fd in fds && fd !in fdv;
    }
    assert r.Keys == base.Keys;
  }

  /** Only descriptors of `fdv` changed: the same ones are open, and every other one is as it was. */
  ghost predicate Untouched(fdv: seq<Fd>, before: map<Fd, OpenFile>, after: map<Fd, OpenFile>)
  {
    after.Keys == before.Keys &&
    forall fd :: fd in before && fd !in fdv ==> after[fd] == before[fd]
  }

  /** `after` is `before` with the descriptors of `fdv`, and no others, newly opened. */
  ghost predicate Extends(fdv: seq<Fd>, before: map<Fd, OpenFile>, after: map<Fd, OpenFile>)
  {
    (forall fd :: fd in before ==> fd in after && after[fd] == before[fd]) &&
    (forall fd :: fd in after ==> fd in before || fd in fdv) &&
    (forall j :: 0 <= j < |fdv| ==> fdv[j] in after && fdv[j] !in before)
  }

  /** Where the name of file `i` is found: the path for the first, the field of the list at `p` for the others. */
  ghost predicate NameAt(i: nat, p: nat, path: string, catlist: string)
  {
    p <= |catlist| && i < |FileNames(path, catlist)| &&
    (i == 0 ==> p == 0) && (1 <= i ==> FieldsFrom(catlist, p) == FileNames(path, catlist)[i..])
  }

  /** The name of file `i`, and where the name of file `i` + 1 starts: past the comma ending this one. */
  method NextName(i: nat, p: nat, path: string, catlist: string) returns (name: string, q: nat)
    requires NameAt(i, p, path, catlist)
    ensures name == FileNames(path, catlist)[i]
    ensures i + 1 < |FileNames(path, catlist)| ==> NameAt(i + 1, q, path, catlist)
  {
    q := p;
    if i == 0 {
      name := path;
      assert catlist[0..] == catlist;
    } else {
      var c := Strchr(catlist, p);
      if c.Some? {
        name := catlist[p..c.value];
        q := c.value + 1;
      } else {
        name := catlist[p..];
      }
    }
  }

  class Access {
    /** The operating system the descriptors belong to. */
    const kernel: Kernel
    /** info.i_size, info.i_pos, info.b_eof, info.i_update */
    var size: int
    var pos: int
    var eof: bool
    var update: bv32
    /** i_nb_reads, counting modulo 2^32 */
    var nbReads: nat
    var kfir: bool
    /** The descriptors and recorded sizes of the files, and how many there are. */
    var filec: nat
    var filev: array<Fd>
    var sizev: array<int>
    /** The active file. */
    var filep: nat
    var seekable: bool
    var paceControl: bool

    /** An open access: one descriptor and one size per file, distinct open descriptors, and the total size. */
    ghost predicate Valid()
      reads this, kernel, filev, sizev
    {
      kernel.Valid() && Shaped() && Held() && Sized()
    }

    /** One descriptor and one size per file, at least one file, and a valid active file. */
    ghost predicate Shaped()
      reads this
    {
      filev != sizev && filev.Length == filec && sizev.Length == filec && 1 <= filec && filep < filec
    }

    /** The descriptors are open and distinct. */
    ghost predicate Held()
      reads this, kernel, filev
    {
      filev.Length == filec &&
      (forall j :: 0 <= j < filec ==> filev[j] in kernel.fds) &&
      (forall j, k :: 0 <= j < k < filec ==> filev[j] != filev[k])
    }

    /** The total size is the sum of the sizes, and the read counter is an unsigned int. */
    ghost predicate Sized()
      reads this, sizev
    {
      NonNegative(sizev[..]) && size == Sum(sizev[..]) && nbReads < UINT_RANGE
    }

    /** The access as a stream value. */
    ghost function View(): (s: Stream)
      reads this, kernel, filev, sizev
      requires Valid()
      ensures Consistent(s)
    {
      assert forall j :: 0 <= j < filec ==> filev[..][j] in kernel.fds && kernel.fds[filev[..][j]].ino < |kernel.inodes|;
      Stream(HandlesOf(filev[..], kernel.fds, kernel.inodes), sizev[..], filep, size, pos, eof,
             update, nbReads, seekable, paceControl, kfir)
    }

    /** The access object before Open: no files. */
    constructor (kernel: Kernel)
      ensures this.kernel == kernel && filec == 0 && filev.Length == 0
    {
      this.kernel := kernel;
      size, pos, eof, update := 0, 0, false, 0;
      nbReads, kfir := 0, false;
      filec := 0;
      filev := new Fd[0];
      sizev := new int[0];
      filep := 0;
      seekable, paceControl := false, false;
    }

    /** open_file: open the file a name refers to after `~/` expansion. */
    method OpenNamed(name: string, home: string) returns (fd: Fd)
      requires kernel.Valid()
      modifies kernel
      ensures kernel.Valid()
      ensures kernel.inodes == old(kernel.inodes) && kernel.names == old(kernel.names) && kernel.stdinIno == old(kernel.stdinIno)
      ensures var p := ExpandPath(home, name);
        (p !in kernel.names ==> fd == -1 && kernel.fds == old(kernel.fds)) &&
        (p !in kernel.names ==> kernel.nextFd == old(kernel.nextFd)) &&
        (p in kernel.names ==> fd == old(kernel.nextFd) && fd !in old(kernel.fds) && kernel.nextFd == fd + 1 &&
                               kernel.fds == old(kernel.fds)[fd := OpenFile(kernel.names[p], 0)])
    {
      fd := kernel.Open(ExpandPath(home, name));
    }

    /** Close: close the descriptor of every file counted in `filec`. */
    method Close()
      requires kernel.Valid() && filec <= filev.Length
      modifies kernel
      ensures kernel.Valid()
      ensures kernel.inodes == old(kernel.inodes) && kernel.names == old(kernel.names) && kernel.stdinIno == old(kernel.stdinIno)
      ensures kernel.fds == old(kernel.fds) - (set fd | fd in filev[..filec])
    {
      var i := 0;
      while i < filec
        invariant 0 <= i <= filec
        invariant kernel.Valid()
        invariant kernel.inodes == old(kernel.inodes) && kernel.names == old(kernel.names) && kernel.stdinIno == old(kernel.stdinIno)
        invariant kernel.fds == old(kernel.fds) - (set fd | fd in filev[..i])
      {
        var _ := kernel.Close(filev[i]);
        assert filev[..i + 1] == filev[..i] + [filev[i]];
        i := i + 1;
      }
    }
 
    /**
     * The descriptor for file `i` of the list: dup of standard input for the
     * path "-", open_file of the name otherwise; a descriptor whose fstat
     * fails or that refers to a directory is closed again, giving -1.
     */
    method OpenChecked(i: nat, name: string, home: string) returns (fd: Fd, st: Stat)
      requires kernel.Valid()
      modifies kernel
      ensures kernel.Valid()
      ensures kernel.inodes == old(kernel.inodes) && kernel.names == old(kernel.names) && kernel.stdinIno == old(kernel.stdinIno)
      ensures old(kernel.nextFd) <= kernel.nextFd
      ensures var t := Target(Env(kernel.inodes, kernel.names, kernel.stdinIno, home), i, name);
        (fd == -1 <==> !Usable(t)) &&
        (fd == -1 ==> kernel.fds == old(kernel.fds)) &&
        (fd != -1 ==> old(kernel.nextFd) <= fd < kernel.nextFd && fd in kernel.fds &&
                      kernel.fds == old(kernel.fds)[fd := kernel.fds[fd]] && kernel.fds[fd].offset == 0 &&
                      kernel.inodes[kernel.fds[fd].ino] == t.value && st == Stat(t.value.kind, t.value.statSize))
    {
      if i == 0 && name == "-" {
        fd := kernel.DupStdin();
      } else {
        fd := OpenNamed(name, home);
      }
      st := Stat(Regular, 0);
      if fd != -1 {
        var r := kernel.Fstat(fd);
        if r.None? || r.value.kind == Directory {
          var _ := kernel.Close(fd);
          assert kernel.fds == old(kernel.fds);
          fd := -1;
        } else {
          st := r.value;
        }
      }
    }

    /** Files 0 to `i` - 1 of `ts` are open, and `size` is the sum of their sizes. */
    ghost predicate OpenedUpTo(i: nat, ts: seq<Option<Inode>>, base: map<Fd, OpenFile>, baseNext: Fd)
      reads this, kernel, filev, sizev
    {
      i <= filev.Length && i <= sizev.Length && baseNext <= kernel.nextFd &&
      OpenedFiles(filev[..i], sizev[..i], ts, kernel.fds, kernel.inodes, base, baseNext) &&
      size == Sum(sizev[..i])
    }

    /** Give up after `i` files: close their descriptors, which leaves the table as it was at `base`. */
    method CloseOpened(i: nat, ghost ts: seq<Option<Inode>>, ghost base: map<Fd, OpenFile>, ghost baseNext: Fd)
      requires kernel.Valid() && OpenedUpTo(i, ts, base, baseNext)
      modifies this, kernel
      ensures kernel.Valid() && kernel.fds == base
      ensures kernel.inodes == old(kernel.inodes) && kernel.names == old(kernel.names) && kernel.stdinIno == old(kernel.stdinIno)
    {
      OpenedRelease(filev[..i], sizev[..i], ts, kernel.fds, kernel.inodes, base, baseNext);
      filec := i;
      Close();
    }

    /** Record file `i`: its descriptor and size, the size added to the total, and seekability lost when this file cannot seek. */
    method Keep(i: nat, fd: Fd, st: Stat)
      requires i < filev.Length && i < sizev.Length && filev != sizev && size == Sum(sizev[..i])
      modifies this, filev, sizev
      ensures filev == old(filev) && sizev == old(sizev) && filec == old(filec) && filep == old(filep)
      ensures filev[..i + 1] == old(filev[..i]) + [fd] && sizev[..i + 1] == old(sizev[..i]) + [st.size]
      ensures filev[i + 1..] == old(filev[i + 1..]) && sizev[i + 1..] == old(sizev[i + 1..])
      ensures size == Sum(sizev[..i + 1])
      ensures seekable == (old(seekable) && SeekableKind(st.kind, st.size))
      ensures pos == old(pos) && eof == old(eof) && update == old(update) && nbReads == old(nbReads)
      ensures paceControl == old(paceControl) && kfir == old(kfir)
    {
      filev[i] := fd;
      sizev[i] := st.size;
      assert filev[..i + 1] == old(filev[..i]) + [fd];
      assert sizev[..i + 1] == old(sizev[..i]) + [st.size];
      SumAppend(old(sizev[..i]), st.size);
      size := size + st.size;
      if !SeekableKind(st.kind, st.size) {
        // one file that cannot seek makes the concatenation unable to seek
        seekable := false;
      }
    }

    /**
     * Open file `i` and keep it: its descriptor and size are recorded, the
     * size added to the total, and the concatenation stops being seekable
     * when this file is not a regular file, a block device or a non-empty
     * character device. A file that cannot be used leaves the descriptor
     * table and the access as they were, and `ok` false.
     */
    method OpenNext(i: nat, name: string, home: string, ghost ts: seq<Option<Inode>>, ghost base: map<Fd, OpenFile>, ghost baseNext: Fd)
        returns (ok: bool)
      requires kernel.Valid() && OpenedUpTo(i, ts, base, baseNext)
      requires i < filev.Length && i < sizev.Length && i < |ts| && filev != sizev
      requires ts[i] == Target(Env(kernel.inodes, kernel.names, kernel.stdinIno, home), i, name)
      modifies this, kernel, filev, sizev
      ensures kernel.Valid() && kernel.inodes == old(kernel.inodes) && kernel.names == old(kernel.names) && kernel.stdinIno == old(kernel.stdinIno)
      ensures ok <==> Usable(ts[i])
      ensures ok ==> OpenedUpTo(i + 1, ts, base, baseNext) && seekable == (old(seekable) && KeepsSeekable(ts[i].value))
      ensures !ok ==> OpenedUpTo(i, ts, base, baseNext)
      ensures filev == old(filev) && sizev == old(sizev) && filec == old(filec) && filep == old(filep)
      ensures pos == old(pos) && eof == old(eof) && update == old(update) && nbReads == old(nbReads)
      ensures paceControl == old(paceControl) && kfir == old(kfir)
    {
      var fd, st := OpenChecked(i, name, home);
      if fd == -1 {
        return false;
      }
      OpenedExtend(filev[..i], sizev[..i], ts, old(kernel.fds), kernel.inodes, base, baseNext, fd, kernel.fds[fd]);
      Keep(i, fd, st);
      ok := true;
    }

    /**
     * Open's loop before file `i`: the files before it are kept, and the
     * flags are what the access name and the files so far make them.
     */
    ghost predicate Progress(i: nat, ts: seq<Option<Inode>>, base: map<Fd, OpenFile>, baseNext: Fd, mode: Mode)
      reads this, kernel, filev, sizev
    {
      i <= filec == |ts| == filev.Length == sizev.Length && filev != sizev &&
      kernel.Valid() && OpenedUpTo(i, ts, base, baseNext) &&
      seekable == (mode == Plain && forall j :: 0 <= j < i ==> KeepsSeekable(ts[j].value)) &&
      paceControl == (mode == Plain) && kfir == (mode == Kfir) &&
      pos == 0 && !eof && update == 0 && nbReads == 0 && filep == 0
    }

    /** One turn of Open's loop: the name of file `i`, then open and keep it, or close the files before it. */
    method OpenStep(i: nat, p: nat, path: string, catlist: string, home: string, ghost ts: seq<Option<Inode>>,
                    ghost base: map<Fd, OpenFile>, ghost baseNext: Fd, ghost mode: Mode) returns (ok: bool, q: nat)
      requires Progress(i, ts, base, baseNext, mode) && i < filec && NameAt(i, p, path, catlist)
      requires ts == Targets(Env(kernel.inodes, kernel.names, kernel.stdinIno, home), FileNames(path, catlist))
      modifies this, kernel, filev, sizev
      ensures kernel.inodes == old(kernel.inodes) && kernel.names == old(kernel.names) && kernel.stdinIno == old(kernel.stdinIno)
      ensures ok ==> Progress(i + 1, ts, base, baseNext, mode) && filev == old(filev) && sizev == old(sizev)
      ensures ok && i + 1 < filec ==> NameAt(i + 1, q, path, catlist)
      ensures !ok ==> kernel.Valid() && kernel.fds == base && FirstUnusable(ts, 0) == Some(i)
    {
      var name;
      name, q := NextName(i, p, path, catlist);
      ok := OpenNext(i, name, home, ts, base, baseNext);
      if !ok {
        FirstUnusableAt(ts, i);
        CloseOpened(i, ts, base, baseNext);
      }
    }

    /**
     * The loop of Open over the files: open and keep each one in turn; at
     * the first one that cannot be used, close the ones before it.
     */
    method OpenFiles(path: string, catlist: string, home: string, ghost ts: seq<Option<Inode>>, ghost mode: Mode)
        returns (ok: bool)
      requires Progress(0, ts, kernel.fds, kernel.nextFd, mode) && NameAt(0, 0, path, catlist)
      requires ts == Targets(Env(kernel.inodes, kernel.names, kernel.stdinIno, home), FileNames(path, catlist))
      modifies this, kernel, filev, sizev
      ensures kernel.inodes == old(kernel.inodes) && kernel.names == old(kernel.names) && kernel.stdinIno == old(kernel.stdinIno)
      ensures ok ==> Progress(|ts|, ts, old(kernel.fds), old(kernel.nextFd), mode) &&
                     filev == old(filev) && sizev == old(sizev) && FirstUnusable(ts, 0).None?
      ensures !ok ==> kernel.Valid() && kernel.fds == old(kernel.fds) && FirstUnusable(ts, 0).Some?
    {
      var p: nat := 0;
      var i := 0;
      while i < filec
        invariant Progress(i, ts, old(kernel.fds), old(kernel.nextFd), mode)
        invariant i < filec ==> NameAt(i, p, path, catlist)
        invariant kernel.inodes == old(kernel.inodes) && kernel.names == old(kernel.names) && kernel.stdinIno == old(kernel.stdinIno)
        invariant filev == old(filev) && sizev == old(sizev)
        decreases filec - i
      {
        ok, p := OpenStep(i, p, path, catlist, home, ts, old(kernel.fds), old(kernel.nextFd), mode);
        if !ok {
          return;
        }
        i := i + 1;
      }
      ok := true;
    }

    /** Once every file is kept, the access is the stream the files give. */
    lemma OpenedView(ts: seq<Option<Inode>>, base: map<Fd, OpenFile>, baseNext: Fd, mode: Mode)
      requires kernel.Valid() && 1 <= filec == |ts| == filev.Length == sizev.Length && filev != sizev
      requires OpenedUpTo(filec, ts, base, baseNext)
      requires filep == 0 && pos == 0 && !eof && update == 0 && nbReads == 0
      requires seekable == (mode == Plain && forall j :: 0 <= j < filec ==> KeepsSeekable(ts[j].value))
      requires paceControl == (mode == Plain) && kfir == (mode == Kfir)
      ensures Valid() && View() == Initial(Kept(ts), mode)
      ensures Extends(filev[..], base, kernel.fds)
    {
      assert filev[..filec] == filev[..];
      assert sizev[..filec] == sizev[..];
      var s := Initial(Kept(ts), mode);
      assert View().handles == s.handles;
      assert View().sizes == s.sizes;
    }

    /** The start of Open: the stream fields cleared, and the flags the access name selects. */
    method Reset(access: string)
      modifies this
      ensures size == 0 && pos == 0 && !eof && update == 0 && nbReads == 0 && filep == 0
      ensures seekable == (ModeOf(access) == Plain) && paceControl == (ModeOf(access) == Plain) && kfir == (ModeOf(access) == Kfir)
    {
      size, pos, eof, update := 0, 0, false, 0;
      nbReads, kfir := 0, false;
      filep := 0;
      if SameIgnoringCase(access, "stream") {
        seekable, paceControl := false, false;
      } else if SameIgnoringCase(access, "kfir") {
        seekable, paceControl := false, false;
        kfir := true;
      } else {
        seekable, paceControl := true, true;
      }
    }

    /** Count the files, the path and those of the list, and allocate a descriptor and a size for each. */
    method Allocate(path: string, catlist: string)
      modifies this
      ensures filec == |FileNames(path, catlist)| == filev.Length == sizev.Length && filev != sizev
      ensures fresh(filev) && fresh(sizev)
      ensures size == old(size) && pos == old(pos) && eof == old(eof) && update == old(update) && nbReads == old(nbReads)
      ensures filep == old(filep) && seekable == old(seekable) && paceControl == old(paceControl) && kfir == old(kfir)
    {
      filec := CountFiles(catlist);
      FileNamesShape(path, catlist);
      filev := new Fd[filec];
      sizev := new int[filec];
    }

    /** Before the first file, Open's loop starts from nothing opened. */
    lemma Started(path: string, catlist: string, home: string, mode: Mode)
      requires kernel.Valid() && filec == |FileNames(path, catlist)| == filev.Length == sizev.Length && filev != sizev
      requires size == 0 && pos == 0 && !eof && update == 0 && nbReads == 0 && filep == 0
      requires seekable == (mode == Plain) && paceControl == (mode == Plain) && kfir == (mode == Kfir)
      ensures Progress(0, Targets(Env(kernel.inodes, kernel.names, kernel.stdinIno, home), FileNames(path, catlist)),
                       kernel.fds, kernel.nextFd, mode)
      ensures NameAt(0, 0, path, catlist)
    {
    }

    /**
     * Open: choose the flags by the access name, count the files, open and
     * fstat each one in turn, adding up the sizes, and refuse at the first
     * file that cannot be used, or a seekable stream of size 0, closing what
     * was opened.
     */
    method Open(access: string, path: string, catlist: string, home: string) returns (status: Status)
      requires kernel.Valid()
      modifies this, kernel
      ensures kernel.Valid()
      ensures kernel.inodes == old(kernel.inodes) && kernel.names == old(kernel.names) && kernel.stdinIno == old(kernel.stdinIno)
      ensures var r := StreamModel.Open(Env(old(kernel.inodes), old(kernel.names), old(kernel.stdinIno), home), access, path, catlist);
        (status == Success <==> r.Opened?) &&
        (r.Opened? ==> Valid() && View() == r.stream)
      ensures status == EGeneric ==> kernel.fds == old(kernel.fds)
      ensures status == Success ==> Extends(filev[..], old(kernel.fds), kernel.fds)
    {
      Reset(access);
      Allocate(path, catlist);
      Started(path, catlist, home, ModeOf(access));
      var ok := OpenFiles(path, catlist, home, Targets(Env(kernel.inodes, kernel.names, kernel.stdinIno, home), FileNames(path, catlist)), ModeOf(access));
      if !ok {
        return EGeneric;
      }
      OpenedView(Targets(Env(kernel.inodes, kernel.names, kernel.stdinIno, home), FileNames(path, catlist)), old(kernel.fds), old(kernel.nextFd), ModeOf(access));
      if seekable && size == 0 {
        CloseOpened(filec, Targets(Env(kernel.inodes, kernel.names, kernel.stdinIno, home), FileNames(path, catlist)), old(kernel.fds), old(kernel.nextFd));
        return EGeneric;
      }
      status := Success;
    }

    /** The periodic refresh: fstat the active file and take up a change of its size. */
    method RefreshSize()
      requires Valid()
      modifies this, sizev
      ensures Valid()
      ensures View() == Refresh(old(View()))
      ensures filev == old(filev) && sizev == old(sizev) && filec == old(filec)
    {
      var st := kernel.Fstat(filev[filep]);
      if st.Some? && sizev[filep] != st.value.size {
        Resize(st.value.size);
      }
    }

    /** A new size of the active file: record it, move the total by the change, and raise INPUT_UPDATE_SIZE. */
    method Resize(v: int)
      requires Valid() && v >= 0
      modifies this, sizev
      ensures Valid()
      ensures View() == old(View()).(size := old(View()).size + v - old(View()).sizes[old(View()).filep],
                                     sizes := old(View()).sizes[old(View()).filep := v],
                                     update := old(View()).update | INPUT_UPDATE_SIZE)
      ensures filev == old(filev) && sizev == old(sizev) && filec == old(filec)
    {
      SumUpdate(sizev[..], filep, v);
      size := size + v - sizev[filep];
      sizev[filep] := v;
      update := update | INPUT_UPDATE_SIZE;
      assert sizev[..] == old(sizev[..])[filep := v];
    }

    /** read() on the active descriptor. */
    method Transfer(len: nat) returns (ret: int, data: seq<byte>)
      requires Valid()
      modifies kernel
      ensures Valid()
      ensures ReadOutcome(View(), ret, data) == StreamModel.Transfer(old(View()), len)
      ensures kernel.Namespace() == old(kernel.Namespace())
      ensures Untouched(filev[..], old(kernel.fds), kernel.fds)
    {
      var fd := filev[filep];
      assert fd in filev[..];
      ret, data := kernel.Read(fd, len);
      HandlesUpdate(filev[..], old(kernel.fds), kernel.inodes, filep, Advanced(old(kernel.fds)[fd], ret));
    }

    /** The read counter, and the size refresh every INPUT_FSTAT_NB_READS reads while the total size is not zero. */
    method Count()
      requires Valid()
      modifies this, sizev
      ensures Valid() && View() == StreamModel.Count(old(View()))
      ensures filev == old(filev) && sizev == old(sizev) && filec == old(filec)
    {
      nbReads := (nbReads + 1) % UINT_RANGE;
      if size != 0 && nbReads % INPUT_FSTAT_NB_READS == 0 {
        RefreshSize();
      }
    }

    /** Read up to the end-of-file check: one read() on the active descriptor, the counter, and the refresh. */
    method ReadOnce(len: nat) returns (ret: int, data: seq<byte>)
      requires Valid()
      modifies this, sizev, kernel
      ensures Valid()
      ensures ReadOutcome(View(), ret, data) == Invoke(old(View()), len)
      ensures kernel.Namespace() == old(kernel.Namespace())
      ensures Untouched(filev[..], old(kernel.fds), kernel.fds)
      ensures filev == old(filev) && sizev == old(sizev) && filec == old(filec)
    {
      ret, data := Transfer(len);
      Count();
    }

    /**
     * The switch at the end of a file that is not the last: the next file
     * becomes the active one, and reading from there gives what reading from
     * `s`, the state before the read() that reached the end, gives.
     */
    method NextFile(ghost s: Stream, len: nat, ghost data: seq<byte>)
      requires Valid() && StreamModel.Shaped(s) && filep + 1 < filec
      requires ReadOutcome(View(), 0, data) == Invoke(s, len)
      modifies this
      ensures Valid() && filep == old(filep) + 1
      ensures StreamModel.Read(View(), len) == StreamModel.Read(s, len)
      ensures filev == old(filev) && sizev == old(sizev) && filec == old(filec)
    {
      Advance();
      ReadSwitches(s, len, old(View()), StreamModel.Read(View(), len));
    }

    /** Make the next file the active one. */
    method Advance()
      requires Valid() && filep + 1 < filec
      modifies this
      ensures Valid() && View() == old(View()).(filep := old(filep) + 1)
      ensures filep == old(filep) + 1
      ensures filev == old(filev) && sizev == old(sizev) && filec == old(filec)
    {
      filep := filep + 1;
    }

    /**
     * The end of Read: a positive count advances the position, a zero count
     * raises end of file; the outcome is that of Read from `s`, the state
     * before the read().
     */
    method Account(ret: int, ghost data: seq<byte>, ghost s: Stream, len: nat)
      requires Valid() && StreamModel.Shaped(s) && !(ret == 0 && filep + 1 < filec)
      requires ReadOutcome(View(), ret, data) == Invoke(s, len)
      modifies this
      ensures Valid() && ReadOutcome(View(), ret, data) == StreamModel.Read(s, len)
      ensures filev == old(filev) && sizev == old(sizev) && filec == old(filec)
    {
      if ret > 0 {
        pos := pos + ret;
      } else if ret == 0 {
        eof := true;
      }
      ReadStays(s, len, ReadOutcome(old(View()), ret, data), ReadOutcome(View(), ret, data));
    }

    /**
     * Read: one read() on the active descriptor, the counter and the
     * periodic size refresh, and at the end of a file that is not the last,
     * the same again on the next one.
     */
    method Read(len: nat) returns (ret: int, data: seq<byte>)
      requires Valid()
      modifies this, sizev, kernel
      ensures Valid()
      ensures ReadOutcome(View(), ret, data) == StreamModel.Read(old(View()), len)
      ensures kernel.Namespace() == old(kernel.Namespace())
      ensures Untouched(filev[..], old(kernel.fds), kernel.fds)
      ensures filev == old(filev) && sizev == old(sizev) && filec == old(filec)
      decreases filec - filep
    {
      ret, data := ReadOnce(len);
      if ret == 0 && filep + 1 < filec {
        // the end of a file that is not the last: go on in the next one
        NextFile(old(View()), len, data);
        ret, data := Read(len);
      } else {
        Account(ret, data, old(View()), len);
      }
    }

    /**
     * The seek translation loop: while the offset left is larger than the
     * size of file `i`, take that size off and step to the next file. Where
     * the step would go past the last file, the C code's assertion fires;
     * that is None here.
     */
    method Translate(target: int) returns (sp: Option<Spot>)
      requires Valid()
      ensures sp == Locate(sizev[..], target)
    {
      var i := 0;
      var rem := target;
      while rem > sizev[i]
        invariant 0 <= i < filec
        invariant Walk(sizev[..], i, rem) == Locate(sizev[..], target)
        decreases filec - i
      {
        if i + 1 == filec {
          return None;
        }
        rem := rem - sizev[i];
        i := i + 1;
      }
      sp := Some(Spot(i, rem));
    }

    /** The new position, with end of file cleared. */
    method SetPosition(target: int)
      requires Valid()
      modifies this
      ensures Valid() && View() == old(View()).(pos := target, eof := false)
      ensures filev == old(filev) && sizev == old(sizev) && filec == old(filec)
    {
      pos := target;
      eof := false;
    }

    /** Make file `i` the active one and lseek its descriptor to `off`. */
    method Activate(i: nat, off: int)
      requires Valid() && i < filec
      modifies this, kernel
      ensures Valid()
      ensures View() == old(View()).(filep := i, handles := old(View()).handles[i := SeekHandle(old(View()).handles[i], off)])
      ensures kernel.Namespace() == old(kernel.Namespace())
      ensures Untouched(filev[..], old(kernel.fds), kernel.fds)
      ensures filev == old(filev) && sizev == old(sizev) && filec == old(filec)
    {
      filep := i;
      var fd := filev[i];
      assert fd in filev[..];
      var _ := kernel.Lseek(fd, off);
      HandlesUpdate(filev[..], old(kernel.fds), kernel.inodes, i, Seeked(kernel.inodes[old(kernel.fds)[fd].ino], old(kernel.fds)[fd], off));
    }

    /**
     * Seek: the clamp (of the previous position, as the code has it), the new
     * position with end of file cleared, and the file holding it made active
     * with its descriptor at the offset inside it. `completed` is false where
     * the translation would step past the last file.
     */
    method Seek(req: int) returns (completed: bool)
      requires Valid()
      modifies this, kernel
      ensures Valid()
      ensures SeekOutcome(View(), completed) == StreamModel.Seek(old(View()), req)
      ensures kernel.Namespace() == old(kernel.Namespace())
      ensures Untouched(filev[..], old(kernel.fds), kernel.fds)
      ensures filev == old(filev) && sizev == old(sizev) && filec == old(filec)
    {
      var target := req;
      if size < pos {
        target := size;
      } else if pos < 0 {
        target := 0;
      }
      SetPosition(target);
      var sp := Translate(target);
      if sp.Some? {
        Activate(sp.value.index, sp.value.local);
        completed := true;
      } else {
        completed := false;
      }
    }
  }
}

=== FILE: catlist.dfy ===
// The string handling of the file access: the comma-separated `file-cat`
// list of extra files, the count of files it yields, `~/` expansion of a
// path, and the case-insensitive comparison of the access name. Strings are
// the characters of a C string before its terminating NUL.

module CatList {
  import opened Posix

  /** Number of commas in `s`. */
  function Commas(s: string): nat
  {
    multiset(s)[',']
  }

  /** strchr(s + from, ','): the index of the first comma at or after `from`, if any. */
  function Strchr(s: string, from: nat): (r: Option<nat>)
    requires from <= |s|
    ensures r.Some? ==> from <= r.value < |s| && s[r.value] == ',' && ',' !in s[from..r.value]
    ensures r.None? ==> ',' !in s[from..]
    decreases |s| - from
  {
    if from == |s| then None
    else if s[from] == ',' then Some(from)
    else
      var r := Strchr(s, from + 1);
      assert s[from..] == [s[from]] + s[from + 1..];
      if r.Some? then
        assert s[from..r.value] == [s[from]] + s[from + 1..r.value];
        r
      else r
  }

  /**
   * The comma-separated fields of `s` from index `from` on, in order: each
   * ends at the next comma, the last one at the end of the string.
   */
  function FieldsFrom(s: string, from: nat): (r: seq<string>)
    requires from <= |s|
    ensures 1 <= |r|
    decreases |s| - from
  {
    match Strchr(s, from)
    case None => [s[from..]]
    case Some(c) => [s[from..c]] + FieldsFrom(s, c + 1)
  }

  /** The comma-separated fields of `s`. */
  function Fields(s: string): seq<string>
  {
    FieldsFrom(s, 0)
  }

  /** n commas separate n + 1 fields, and no field holds a comma. */
  lemma {:induction false} FieldsShape(s: string, from: nat)
    requires from <= |s|
    ensures |FieldsFrom(s, from)| == Commas(s[from..]) + 1
    ensures forall k :: 0 <= k < |FieldsFrom(s, from)| ==> ',' !in FieldsFrom(s, from)[k]
    decreases |s| - from
  {
    match Strchr(s, from)
    case None =>
      assert multiset(s[from..])[','] == 0;
    case Some(c) =>
      FieldsShape(s, c + 1);
      assert s[from..] == s[from..c] + [','] + s[c + 1..];
      assert multiset(s[from..c])[','] == 0;
      assert multiset(s[from..]) == multiset(s[from..c]) + multiset{','} + multiset(s[c + 1..]);
  }

  /** Joining the fields back with commas gives the list again. */
  function Join(fs: seq<string>): string
  {
    if |fs| <= 1 then (if fs == [] then [] else fs[0])
    else fs[0] + [','] + Join(fs[1..])
  }

  lemma {:induction false} JoinFields(s: string, from: nat)
    requires from <= |s|
    ensures Join(FieldsFrom(s, from)) == s[from..]
    decreases |s| - from
  {
    match Strchr(s, from)
    case None =>
    case Some(c) =>
      JoinFields(s, c + 1);
      var rest := FieldsFrom(s, c + 1);
      assert FieldsFrom(s, from)[1..] == rest;
      FieldsShape(s, c + 1);
      assert s[from..] == s[from..c] + [','] + s[c + 1..];
  }

  /** Stepping over the next comma counts one more comma. */
  lemma CommasToNext(s: string, p: nat, c: nat)
    requires p <= c < |s| && s[c] == ',' && ',' !in s[p..c]
    ensures Commas(s[..c + 1]) == Commas(s[..p]) + 1
  {
    assert s[..c + 1] == s[..p] + s[p..c] + [','];
  }

  /** With no comma after `p`, the commas before `p` are all of them. */
  lemma CommasToEnd(s: string, p: nat)
    requires p <= |s| && ',' !in s[p..]
    ensures Commas(s) == Commas(s[..p])
  {
    assert s == s[..p] + s[p..];
  }

  /**
   * The number of files to open: the main one plus, when the list is not
   * empty, one per comma-separated field. The loop steps a pointer from comma
   * to comma as the C loop over strchr does.
   */
  method CountFiles(catlist: string) returns (filec: nat)
    ensures catlist == [] ==> filec == 1
    ensures catlist != [] ==> filec == 2 + Commas(catlist)
  {
    filec := 1;
    if catlist != [] {
      var ptr: Option<nat> := Some(0);
      while ptr.Some?
        invariant ptr.Some? ==> ptr.value <= |catlist| && filec == 1 + Commas(catlist[..ptr.value])
        invariant ptr.None? ==> filec == 2 + Commas(catlist)
        decreases if ptr.Some? then |catlist| + 1 - ptr.value else 0
      {
        var p := ptr.value;
        var c := Strchr(catlist, p);
        if c.Some? {
          CommasToNext(catlist, p, c.value);
          ptr := Some(c.value + 1);
        } else {
          CommasToEnd(catlist, p);
          ptr := None;
        }
        filec := filec + 1;
      }
    }
  }

  /** Whether `path` starts with the `~/` shorthand for the home directory. */
  predicate HomeRelative(path: string)
  {
    |path| >= 2 && path[0] == '~' && path[1] == '/'
  }

  /** expand_path: `~/rest` becomes `home/rest`; any other path is kept. */
  function ExpandPath(home: string, path: string): (r: string)
    ensures !HomeRelative(path) ==> r == path
    ensures HomeRelative(path) ==> |r| == |home| + |path| - 1
    ensures HomeRelative(path) ==> r[..|home|] == home && r[|home|] == '/' && r[|home| + 1..] == path[2..]
  {
    if HomeRelative(path) then home + "/" + path[2..] else path
  }

  /**
   * Expanding twice changes nothing more, unless the home directory itself
   * starts with `~/`. A home of just `~` gives back the `~/` path itself,
   * which the second expansion turns into the same string again.
   */
  lemma ExpandPathIdempotent(home: string, path: string)
    requires !HomeRelative(home)
    ensures ExpandPath(home, ExpandPath(home, path)) == ExpandPath(home, path)
  {
    if HomeRelative(path) {
      var r := ExpandPath(home, path);
      if |home| == 0 {
        assert r[0] == '/';
      } else if home == "~" {
        assert r == path;
      } else if |home| == 1 {
        assert r[0] == home[0] && r[1] == '/';
      } else {
        assert r[0] == home[0] && r[1] == home[1];
      }
    }
  }

  /** tolower in the C locale. */
  function Lower(c: char): char
  {
    if 'A' <= c <= 'Z' then (c as int + 32) as char else c
  }

  /** strcasecmp(a, b) == 0 in the C locale. */
  predicate SameIgnoringCase(a: string, b: string)
  {
    |a| == |b| && forall i :: 0 <= i < |a| ==> Lower(a[i]) == Lower(b[i])
  }
}

=== FILE: control.dfy ===
// The control entry point of the file access: the queries a consumer asks,
// what the access answers through the out-pointer, and the status it
// returns. Control only reads the capability flags Open chose and the
// configured caching delay; it changes nothing.

module AccessControl {
  import opened CatList
  import opened StreamModel

  /** The status codes the access returns. */
  datatype Status = Success | EGeneric

  /** The access queries, with any other code kept as it is. */
  datatype Query =
    | CanSeek | CanFastSeek | CanPause | CanControlPace
    | GetMtu | GetPtsDelay | SetPauseState
    | GetTitleInfo | SetTitle | SetSeekpoint | SetPrivateIdState | GetMeta
    | Unknown(code: int)

  /** What the access writes through the query's out-pointer, if anything. */
  datatype Answer = NoAnswer | Flag(flag: bool) | Mtu(mtu: int) | PtsDelay(us: int)

  datatype Reply = Reply(status: Status, answer: Answer)

  /** The queries the access answers; every other one is refused. */
  predicate Supported(q: Query)
  {
    q.CanSeek? || q.CanFastSeek? || q.CanPause? || q.CanControlPace? ||
    q.GetMtu? || q.GetPtsDelay? || q.SetPauseState?
  }

  /**
   * Control: both seek queries answer the seekable flag, both pace queries
   * the pace-control flag, the transfer unit is 0 (no framing), the delay
   * is the caching setting in milliseconds turned into microseconds, and
   * the pause state needs nothing.
   */
  function Control(q: Query, seekable: bool, paceControl: bool, cachingMs: int): (r: Reply)
    ensures r.answer.Flag? <==> q.CanSeek? || q.CanFastSeek? || q.CanPause? || q.CanControlPace?
    ensures r.answer.Mtu? <==> q.GetMtu?
    ensures r.answer.Mtu? ==> r.answer.mtu == 0
  {
    match q
    case CanSeek => Reply(Success, Flag(seekable))
    case CanFastSeek => Reply(Success, Flag(seekable))
    case CanPause => Reply(Success, Flag(paceControl))
    case CanControlPace => Reply(Success, Flag(paceControl))
    case GetMtu => Reply(Success, Mtu(0))
    case GetPtsDelay => Reply(Success, PtsDelay(cachingMs * 1000))
    case SetPauseState => Reply(Success, NoAnswer)
    case _ => Reply(EGeneric, NoAnswer)
  }

  /**
   * The access answers exactly the supported queries; a refused query
   * writes nothing; only the pause-state query succeeds without an answer.
   */
  lemma ControlSupported(q: Query, seekable: bool, paceControl: bool, cachingMs: int)
    ensures var r := Control(q, seekable, paceControl, cachingMs);
      (r.status == Success <==> Supported(q)) &&
      (r.status == EGeneric ==> r.answer == NoAnswer) &&
      (r.status == Success && r.answer == NoAnswer <==> q == SetPauseState)
  {
  }

  /**
   * The answers depend only on what they name: a seek query never looks at
   * pace control, a pace query never at seekability, and the two queries
   * of each pair agree.
   */
  lemma ControlAnswersAgree(seekable: bool, paceControl: bool, cachingMs: int, other: bool)
    ensures Control(CanSeek, seekable, paceControl, cachingMs) == Control(CanFastSeek, seekable, other, cachingMs)
    ensures Control(CanPause, seekable, paceControl, cachingMs) == Control(CanControlPace, other, paceControl, cachingMs)
    ensures Control(CanSeek, seekable, paceControl, cachingMs).answer.flag == seekable
    ensures Control(CanPause, seekable, paceControl, cachingMs).answer.flag == paceControl
    ensures Control(GetPtsDelay, seekable, paceControl, cachingMs).answer.us == 1000 * cachingMs
  {
  }

  /**
   * On a stream Open gave, a consumer told the access can seek is also told
   * it controls the pace; in "stream" and "kfir" modes it is told neither.
   */
  lemma ControlAfterOpen(e: Env, access: string, path: string, catlist: string, cachingMs: int)
    requires EnvValid(e)
    ensures var r := Open(e, access, path, catlist);
      r.Opened? ==>
        var s := r.stream;
        var canSeek := Control(CanSeek, s.seekable, s.paceControl, cachingMs).answer.flag;
        var canPace := Control(CanControlPace, s.seekable, s.paceControl, cachingMs).answer.flag;
        (canSeek ==> canPace) &&
        (canPace <==> !SameIgnoringCase(access, "stream") && !SameIgnoringCase(access, "kfir"))
  {
    OpenedFlags(e, access, path, catlist);
  }
}

=== FILE: layout.dfy ===
// Seek translation: how a logical offset in the concatenation maps to a
// file index and an offset inside that file, given the per-file sizes.

module Layout {
  import opened Posix

  /** The total of a list of sizes, accumulated from the front as Open does. */
  function Sum(s: seq<int>): int
  {
    if s == [] then 0 else Sum(s[..|s| - 1]) + s[|s| - 1]
  }

  predicate NonNegative(s: seq<int>)
  {
    forall k :: 0 <= k < |s| ==> s[k] >= 0
  }

  /** The logical offset at which file `j` ends. */
  function EndOf(sizes: seq<int>, j: nat): int
    requires j < |sizes|
  {
    Sum(sizes[..j + 1])
  }

  /** A place in the concatenation: a file index and an offset in that file. */
  datatype Spot = Spot(index: nat, local: int)

  /**
   * The seek loop from file `i` with `rem` bytes still to skip: while `rem`
   * is larger than the size of file `i`, subtract that size and step to the
   * next file. Stepping past the last file is the loop's assertion failure,
   * written as None.
   */
  function Walk(sizes: seq<int>, i: nat, rem: int): (r: Option<Spot>)
    requires i < |sizes|
    ensures r.Some? ==> i <= r.value.index < |sizes| && r.value.local <= sizes[r.value.index]
    decreases |sizes| - i
  {
    if rem > sizes[i] then
      if i + 1 < |sizes| then Walk(sizes, i + 1, rem - sizes[i]) else None
    else Some(Spot(i, rem))
  }

  /** The seek translation of a logical offset `pos`. */
  function Locate(sizes: seq<int>, pos: int): (r: Option<Spot>)
    requires |sizes| > 0
    ensures r.Some? ==> r.value.index < |sizes|
  {
    Walk(sizes, 0, pos)
  }

  lemma SumAppend(s: seq<int>, x: int)
    ensures Sum(s + [x]) == Sum(s) + x
  {
    assert (s + [x])[..|s|] == s;
  }

  lemma {:induction false} SumNonNegative(s: seq<int>)
    requires NonNegative(s)
    ensures Sum(s) >= 0
  {
    if s != [] {
      SumNonNegative(s[..|s| - 1]);
    }
  }

  /** Non-negative sizes add up to zero exactly when they are all zero. */
  lemma {:induction false} SumZero(s: seq<int>)
    requires NonNegative(s)
    ensures Sum(s) == 0 <==> forall k :: 0 <= k < |s| ==> s[k] == 0
  {
    if s != [] {
      SumZero(s[..|s| - 1]);
      SumNonNegative(s[..|s| - 1]);
    }
  }

  /** Summing a prefix one element longer adds that element. */
  lemma SumPrefixStep(s: seq<int>, i: nat)
    requires i < |s|
    ensures Sum(s[..i + 1]) == Sum(s[..i]) + s[i]
  {
    assert s[..i + 1][..i] == s[..i];
  }

  /** Replacing one size changes the total by exactly the difference. */
  lemma {:induction false} SumUpdate(s: seq<int>, i: nat, v: int)
    requires i < |s|
    ensures Sum(s[i := v]) == Sum(s) - s[i] + v
    decreases |s|
  {
    var t := s[i := v];
    var n := |s| - 1;
    if i == n {
      assert t[..n] == s[..n];
    } else {
      assert t[..n] == s[..n][i := v];
      SumUpdate(s[..n], i, v);
    }
  }

  /** The prefix sums grow with the prefix when sizes are non-negative. */
  lemma {:induction false} SumPrefixMonotone(s: seq<int>, i: nat, j: nat)
    requires NonNegative(s) && i <= j <= |s|
    ensures Sum(s[..i]) <= Sum(s[..j])
    decreases j - i
  {
    if i < j {
      SumPrefixMonotone(s, i, j - 1);
      SumPrefixStep(s, j - 1);
    }
  }

  /**
   * What the walk from file `i` yields, when `rem` is what is left of `pos`
   * after the files before `i`: the least file whose end is at or beyond
   * `pos`, and the rest of `pos` inside it; or None exactly when `pos` lies
   * beyond the last file.
   */
  lemma {:induction false} WalkCorrect(sizes: seq<int>, i: nat, rem: int, pos: int)
    requires NonNegative(sizes) && i < |sizes|
    requires rem == pos - Sum(sizes[..i])
    requires forall j :: 0 <= j < i ==> EndOf(sizes, j) < pos
    ensures Walk(sizes, i, rem).None? <==> pos > Sum(sizes)
    ensures Walk(sizes, i, rem).Some? ==>
      var sp := Walk(sizes, i, rem).value;
      i <= sp.index < |sizes| && sp.local <= sizes[sp.index] &&
      Sum(sizes[..sp.index]) + sp.local == pos &&
      (forall j :: 0 <= j < sp.index ==> EndOf(sizes, j) < pos)
    decreases |sizes| - i
  {
    SumPrefixStep(sizes, i);
    assert sizes[..|sizes|] == sizes;
    if rem > sizes[i] {
      if i + 1 < |sizes| {
        WalkCorrect(sizes, i + 1, rem - sizes[i], pos);
      }
    } else {
      SumPrefixMonotone(sizes, i + 1, |sizes|);
    }
  }

  /**
   * Seek translation is correct: an offset up to the total maps to a file
   * and an offset in it that add up to the logical offset, the file is the
   * first one that reaches the offset, and the walk fails exactly for an
   * offset past the total.
   */
  lemma LocateCorrect(sizes: seq<int>, pos: int)
    requires |sizes| > 0 && NonNegative(sizes)
    ensures Locate(sizes, pos).None? <==> pos > Sum(sizes)
    ensures Locate(sizes, pos).Some? ==>
      var sp := Locate(sizes, pos).value;
      sp.index < |sizes| && sp.local <= sizes[sp.index] &&
      Sum(sizes[..sp.index]) + sp.local == pos &&
      (forall j :: 0 <= j < sp.index ==> EndOf(sizes, j) < pos) &&
      (pos >= 0 ==> 0 <= sp.local) &&
      (sp.index > 0 ==> 0 < sp.local)
  {
    WalkCorrect(sizes, 0, pos, pos);
    if Locate(sizes, pos).Some? {
      var sp := Locate(sizes, pos).value;
      if sp.index > 0 {
        assert EndOf(sizes, sp.index - 1) < pos;
      }
    }
  }

  /**
   * An offset exactly on the end of a non-empty file `k` stays in file `k`,
   * at the offset equal to its size, rather than going to the start of the
   * next file.
   */
  lemma LocateBoundary(sizes: seq<int>, k: nat)
    requires k < |sizes| && NonNegative(sizes) && sizes[k] > 0
    ensures Locate(sizes, Sum(sizes[..k + 1])) == Some(Spot(k, sizes[k]))
  {
    var pos := Sum(sizes[..k + 1]);
    SumPrefixMonotone(sizes, k + 1, |sizes|);
    assert sizes[..|sizes|] == sizes;
    LocateCorrect(sizes, pos);
    var sp := Locate(sizes, pos).value;
    SumPrefixStep(sizes, k);
    // file `k` ends at `pos`, so the walk does not pass it
    assert EndOf(sizes, k) == pos;
    if sp.index < k {
      // the walk would have stopped at a file ending at or beyond `pos`
      SumPrefixStep(sizes, sp.index);
      SumPrefixMonotone(sizes, sp.index + 1, k);
      assert false;
    } else if sp.index > k {
      assert false;
    }
  }
}

=== FILE: posix.dfy ===
// The operating system as the file access sees it: files with a kind and
// contents, a name space, and a table of descriptors with their own offsets.
// Only the calls the access makes are modelled: open, dup of standard input,
// fstat, read, lseek and close.

module Posix {

  newtype byte = x: int | 0 <= x < 256

  /** A file descriptor; -1 is the error value of open. */
  type Fd = int

  /** The file kinds that stat distinguishes (S_ISREG, S_ISBLK, S_ISCHR, S_ISDIR, ...). */
  datatype FileKind = Regular | BlockDevice | CharDevice | Directory | Fifo | Socket

  /**
   * A file: its kind, its contents as read() delivers them, the size fstat
   * reports (`st_size`, which for a device, a pipe or a socket need not be
   * the number of bytes it delivers), and whether fstat or read on it fail.
   */
  datatype Inode = Inode(kind: FileKind, data: seq<byte>, statSize: nat, statFails: bool, readFails: bool)

  /** An open descriptor: the file it refers to and its own offset. */
  datatype OpenFile = OpenFile(ino: nat, offset: nat)

  /** The part of `struct stat` the access looks at. */
  datatype Stat = Stat(kind: FileKind, size: int)

  datatype Option<T> = None | Some(value: T)

  /** What read(2) returns: a count (negative on error) and the bytes placed in the buffer. */
  datatype ReadResult = ReadResult(ret: int, bytes: seq<byte>)

  function Min(a: int, b: int): int { if a <= b then a else b }

  /** read(fd, buf, len) on a descriptor at `offset` of `node`. */
  function ReadAt(node: Inode, offset: nat, len: nat): (r: ReadResult)
    ensures r.ret < 0 <==> node.readFails
    ensures r.ret >= 0 ==> r.ret == |r.bytes| <= len
    ensures r.ret > 0 ==> offset + r.ret <= |node.data| && r.bytes == node.data[offset..offset + r.ret]
    ensures r.ret == 0 <==> !node.readFails && (len == 0 || |node.data| <= offset)
    ensures r.ret >= 0 && offset + len <= |node.data| ==> r.ret == len
  {
    if node.readFails then ReadResult(-1, [])
    else if |node.data| <= offset then ReadResult(0, [])
    else
      var n := Min(len, |node.data| - offset);
      ReadResult(n, node.data[offset..offset + n])
  }

  /** fstat on a descriptor of `node`. */
  function StatOf(node: Inode): (r: Option<Stat>)
    ensures r.Some? <==> !node.statFails
    ensures r.Some? ==> r.value.kind == node.kind && r.value.size == node.statSize
  {
    if node.statFails then None else Some(Stat(node.kind, node.statSize))
  }

  /** The kinds lseek refuses with ESPIPE: pipes and sockets. */
  predicate Unseekable(kind: FileKind)
  {
    kind == Fifo || kind == Socket
  }

  /** The new offset of a descriptor after read returned `ret`. */
  function Advanced(f: OpenFile, ret: int): (g: OpenFile)
    ensures g.ino == f.ino
    ensures g.offset == if ret > 0 then f.offset + ret else f.offset
  {
    if ret > 0 then f.(offset := f.offset + ret) else f
  }

  /**
   * lseek(fd, off, SEEK_SET) on a descriptor of `node`: a negative offset
   * (EINVAL) and a pipe or socket (ESPIPE) are refused and change nothing.
   */
  function Seeked(node: Inode, f: OpenFile, off: int): (g: OpenFile)
    ensures g.ino == f.ino
    ensures off >= 0 && !Unseekable(node.kind) ==> g.offset == off
    ensures off < 0 || Unseekable(node.kind) ==> g == f
  {
    if off < 0 || Unseekable(node.kind) then f else f.(offset := off)
  }

  class Kernel {
    /** The files, by inode number. */
    var inodes: seq<Inode>
    /** The name space: a path names an inode. */
    var names: map<string, nat>
    /** The file behind descriptor 0. */
    var stdinIno: nat
    /** The descriptors the process holds, besides the standard ones. */
    var fds: map<Fd, OpenFile>
    /** The next descriptor number open or dup hands out. */
    var nextFd: Fd

    ghost predicate Valid()
      reads this
    {
      stdinIno < |inodes| &&
      (forall p :: p in names ==> names[p] < |inodes|) &&
      3 <= nextFd &&
      (forall fd :: fd in fds ==> 3 <= fd < nextFd && fds[fd].ino < |inodes|)
    }

    /**
     * What reading and seeking leave alone: the files, the name space,
     * standard input, which descriptors are open, and the next descriptor.
     */
    ghost function Namespace(): (seq<Inode>, map<string, nat>, nat, set<Fd>, Fd)
      reads this
    {
      (inodes, names, stdinIno, fds.Keys, nextFd)
    }

    constructor (inodes: seq<Inode>, names: map<string, nat>, stdinIno: nat)
      requires stdinIno < |inodes|
      requires forall p :: p in names ==> names[p] < |inodes|
      ensures Valid()
      ensures this.inodes == inodes && this.names == names && this.stdinIno == stdinIno
      ensures fds == map[]
    {
      this.inodes := inodes;
      this.names := names;
      this.stdinIno := stdinIno;
      fds := map[];
      nextFd := 3;
    }

    /** open(path, O_NONBLOCK): a fresh descriptor at offset 0, or -1 when nothing has that name. */
    method Open(path: string) returns (fd: Fd)
      requires Valid()
      modifies this
      ensures Valid()
      ensures inodes == old(inodes) && names == old(names) && stdinIno == old(stdinIno)
      ensures path !in names ==> fd == -1 && fds == old(fds) && nextFd == old(nextFd)
      ensures path in names ==> fd == old(nextFd) && fd !in old(fds) && nextFd == old(nextFd) + 1
                                && fds == old(fds)[fd := OpenFile(names[path], 0)]
    {
      if path in names {
        fd := nextFd;
        fds := fds[fd := OpenFile(names[path], 0)];
        nextFd := nextFd + 1;
      } else {
        fd := -1;
      }
    }

    /** dup(0): a fresh descriptor on standard input. */
    method DupStdin() returns (fd: Fd)
      requires Valid()
      modifies this
      ensures Valid()
      ensures inodes == old(inodes) && names == old(names) && stdinIno == old(stdinIno)
      ensures fd == old(nextFd) && fd !in old(fds) && nextFd == old(nextFd) + 1
      ensures fds == old(fds)[fd := OpenFile(stdinIno, 0)]
    {
      fd := nextFd;
      fds := fds[fd := OpenFile(stdinIno, 0)];
      nextFd := nextFd + 1;
    }

    /** fstat(fd). */
    method Fstat(fd: Fd) returns (st: Option<Stat>)
      requires Valid() && fd in fds
      ensures st == StatOf(inodes[fds[fd].ino])
    {
      st := StatOf(inodes[fds[fd].ino]);
    }

    /** read(fd, buf, len): the bytes at the descriptor's offset, which moves past them. */
    method Read(fd: Fd, len: nat) returns (ret: int, bytes: seq<byte>)
      requires Valid() && fd in fds
      modifies this
      ensures Valid()
      ensures inodes == old(inodes) && names == old(names) && stdinIno == old(stdinIno)
      ensures nextFd == old(nextFd)
      ensures Namespace() == old(Namespace())
      ensures ReadResult(ret, bytes) == ReadAt(inodes[old(fds)[fd].ino], old(fds)[fd].offset, len)
      ensures fds == old(fds)[fd := Advanced(old(fds)[fd], ret)]
    {
      var f := fds[fd];
      var r := ReadAt(inodes[f.ino], f.offset, len);
      ret, bytes := r.ret, r.bytes;
      fds := fds[fd := Advanced(f, ret)];
      assert fds.Keys == old(fds).Keys;
    }

    /** lseek(fd, off, SEEK_SET): the new offset, or -1 when it is refused. */
    method Lseek(fd: Fd, off: int) returns (r: int)
      requires Valid() && fd in fds
      modifies this
      ensures Valid()
      ensures inodes == old(inodes) && names == old(names) && stdinIno == old(stdinIno)
      ensures nextFd == old(nextFd)
      ensures Namespace() == old(Namespace())
      ensures r == if off < 0 || Unseekable(inodes[old(fds)[fd].ino].kind) then -1 else off
      ensures fds == old(fds)[fd := Seeked(inodes[old(fds)[fd].ino], old(fds)[fd], off)]
    {
      var node := inodes[fds[fd].ino];
      fds := fds[fd := Seeked(node, fds[fd], off)];
      assert fds.Keys == old(fds).Keys;
      r := if off < 0 || Unseekable(node.kind) then -1 else off;
    }

    /** close(fd): 0 and the descriptor is gone, or -1 (EBADF) when it was not open. */
    method Close(fd: Fd) returns (r: int)
      requires Valid()
      modifies this
      ensures Valid()
      ensures inodes == old(inodes) && names == old(names) && stdinIno == old(stdinIno)
      ensures nextFd == old(nextFd)
      ensures r == if fd in old(fds) then 0 else -1
      ensures fds == old(fds) - {fd}
    {
      if fd in fds {
        r := 0;
      } else {
        r := -1;
      }
      fds := fds - {fd};
    }
  }
}

=== FILE: stream.dfy ===
// The concatenated stream as a value: the files behind the descriptors, the
// per-file sizes, the active file, and the logical size, position, end-of-file
// flag, update flags and read counter. Open, Read and Seek of the file access
// are specified here as functions of this value; the class in access.dfy is
// proved to follow them.

module StreamModel {
  import opened Posix
  import opened Layout
  import opened CatList

  /** Reads between two fstat() calls on the active file (defined in a VLC header). */
  const INPUT_FSTAT_NB_READS: nat := 10
  /** The bit of `i_update` that tells the consumer the size changed. */
  const INPUT_UPDATE_SIZE: bv32 := 1
  /** `i_nb_reads` is an unsigned int: it counts modulo 2^32. */
  const UINT_RANGE: nat := 0x1_0000_0000

  /** A descriptor of the stream: the file behind it and its offset. */
  datatype Handle = Handle(node: Inode, offset: nat)

  datatype Stream = Stream(
    handles: seq<Handle>,  // filev, as the files the descriptors refer to
    sizes: seq<int>,       // sizev: the size of each file when it was last stat'ed
    filep: nat,            // the active file
    size: int,             // info.i_size
    pos: int,              // info.i_pos
    eof: bool,             // info.b_eof
    update: bv32,          // info.i_update
    nbReads: nat,          // i_nb_reads
    seekable: bool,        // b_seekable
    paceControl: bool,     // b_pace_control
    kfir: bool)            // b_kfir

  /** The shape every operation needs: one size per file, at least one file, a valid active file. */
  predicate Shaped(s: Stream)
  {
    1 <= |s.handles| == |s.sizes| && s.filep < |s.handles|
  }

  /** The invariant of an open stream: the logical size is the sum of the per-file sizes. */
  predicate Consistent(s: Stream)
  {
    Shaped(s) && NonNegative(s.sizes) && s.size == Sum(s.sizes) && s.nbReads < UINT_RANGE
  }

  /** What a Read returns: the new state, the count (negative on error) and the bytes. */
  datatype ReadOutcome = ReadOutcome(after: Stream, ret: int, bytes: seq<byte>)

  function AdvanceHandle(h: Handle, ret: int): Handle
  {
    if ret > 0 then h.(offset := h.offset + ret) else h
  }

  /** lseek on a handle: refused for a negative offset and for a pipe or socket. */
  function SeekHandle(h: Handle, off: int): Handle
  {
    if off < 0 || Unseekable(h.node.kind) then h else h.(offset := off)
  }

  /**
   * The periodic size refresh: fstat the active file and, when its size
   * differs from the recorded one, adjust the total by the difference, record
   * the new size and raise INPUT_UPDATE_SIZE.
   */
  function Refresh(s: Stream): (t: Stream)
    requires Shaped(s)
    ensures Shaped(t) && t.filep == s.filep && t.handles == s.handles
  {
    match StatOf(s.handles[s.filep].node)
    case None => s
    case Some(st) =>
      if s.sizes[s.filep] != st.size then
        s.(size := s.size + st.size - s.sizes[s.filep],
           sizes := s.sizes[s.filep := st.size],
           update := s.update | INPUT_UPDATE_SIZE)
      else s
  }

  /** The read() itself: the bytes at the active descriptor, which moves past those it returns. */
  function Transfer(s: Stream, len: nat): (o: ReadOutcome)
    requires Shaped(s)
    ensures Shaped(o.after)
  {
    var h := s.handles[s.filep];
    var r := ReadAt(h.node, h.offset, len);
    ReadOutcome(s.(handles := s.handles[s.filep := AdvanceHandle(h, r.ret)]), r.ret, r.bytes)
  }

  /** The read counter, and the refresh every INPUT_FSTAT_NB_READS reads while the total size is not zero. */
  function Count(s: Stream): (t: Stream)
    requires Shaped(s)
    ensures Shaped(t) && t.filep == s.filep && t.handles == s.handles
    ensures t.nbReads == (s.nbReads + 1) % UINT_RANGE
    ensures s.size == 0 || t.nbReads % INPUT_FSTAT_NB_READS != 0 ==>
      t.sizes == s.sizes && t.size == s.size && t.update == s.update
    ensures s.size != 0 && t.nbReads % INPUT_FSTAT_NB_READS == 0 && !s.handles[s.filep].node.statFails ==>
      t.sizes[s.filep] == s.handles[s.filep].node.statSize
  {
    var s1 := s.(nbReads := (s.nbReads + 1) % UINT_RANGE);
    if s1.size != 0 && s1.nbReads % INPUT_FSTAT_NB_READS == 0 then Refresh(s1) else s1
  }

  /**
   * One entry into Read, up to the end-of-file check: one read() on the
   * active file, the counter, and the refresh every INPUT_FSTAT_NB_READS
   * calls while the total size is not zero.
   */
  function Invoke(s: Stream, len: nat): (o: ReadOutcome)
    requires Shaped(s)
    ensures Shaped(o.after) && o.after.filep == s.filep && |o.after.handles| == |s.handles|
    ensures o.after.pos == s.pos && o.after.eof == s.eof && o.after.nbReads == (s.nbReads + 1) % UINT_RANGE
    ensures o.after.seekable == s.seekable && o.after.paceControl == s.paceControl && o.after.kfir == s.kfir
  {
    var t := Transfer(s, len);
    t.(after := Count(t.after))
  }

  /** The end of Read: a positive count advances the position, a zero count sets end of file. */
  function Finish(o: ReadOutcome): (r: ReadOutcome)
    ensures r.ret == o.ret && r.bytes == o.bytes
    ensures r.after == o.after.(pos := r.after.pos, eof := r.after.eof)
  {
    if o.ret > 0 then o.(after := o.after.(pos := o.after.pos + o.ret))
    else if o.ret == 0 then o.(after := o.after.(eof := true))
    else o
  }

  /**
   * Read as written: when the active file is at its end and is not the last
   * one, make the next file active and read again from wherever that file's
   * descriptor stands.
   */
  function Read(s: Stream, len: nat): (o: ReadOutcome)
    requires Shaped(s)
    ensures Shaped(o.after) && |o.after.handles| == |s.handles|
    decreases |s.handles| - s.filep
  {
    var o := Invoke(s, len);
    if o.ret == 0 && s.filep + 1 < |s.handles| then
      Read(o.after.(filep := s.filep + 1), len)
    else Finish(o)
  }

  /** Read at the end of a file that is not the last goes on in the next file. */
  lemma ReadSwitches(s: Stream, len: nat, t: Stream, o: ReadOutcome)
    requires Shaped(s) && Invoke(s, len).ret == 0 && Invoke(s, len).after == t && s.filep + 1 < |s.handles|
    requires o == Read(t.(filep := t.filep + 1), len)
    ensures o == Read(s, len)
  {
  }

  /** Otherwise Read ends with the one read() it made. */
  lemma ReadStays(s: Stream, len: nat, i: ReadOutcome, o: ReadOutcome)
    requires Shaped(s) && i == Invoke(s, len) && !(i.ret == 0 && s.filep + 1 < |s.handles|)
    requires o == Finish(i)
    ensures o == Read(s, len)
  {
  }

  /** Counting one entry and then `k + 1` more is counting `k + 2` entries, modulo 2^32. */
  lemma CounterStep(a: nat, b: nat, c: nat, k: int)
    requires b == (a + 1) % UINT_RANGE && c == (b + k + 1) % UINT_RANGE
    ensures c == (a + (k + 1) + 1) % UINT_RANGE
  {
  }

  /** The refresh keeps the total equal to the sum of the sizes. */
  lemma RefreshKeepsSum(s: Stream)
    requires Consistent(s)
    ensures Consistent(Refresh(s))
  {
    match StatOf(s.handles[s.filep].node)
    case None =>
    case Some(st) =>
      if s.sizes[s.filep] != st.size {
        SumUpdate(s.sizes, s.filep, st.size);
      }
  }

  /**
   * The refresh records the size fstat reports for the active file only,
   * moves the total by exactly the change, and raises INPUT_UPDATE_SIZE
   * exactly when the size changed; a failing fstat changes nothing.
   */
  lemma RefreshBookkeeping(s: Stream)
    requires Shaped(s)
    ensures var t := Refresh(s);
      t.size - s.size == t.sizes[s.filep] - s.sizes[s.filep] &&
      (forall j :: 0 <= j < |s.sizes| && j != s.filep ==> t.sizes[j] == s.sizes[j]) &&
      (!s.handles[s.filep].node.statFails ==> t.sizes[s.filep] == s.handles[s.filep].node.statSize) &&
      (s.handles[s.filep].node.statFails ==> t == s) &&
      t.pos == s.pos && t.eof == s.eof && t.nbReads == s.nbReads
  {
  }

  lemma RefreshFlags(s: Stream)
    requires Shaped(s)
    ensures var t := Refresh(s);
      t.update == (if t.sizes == s.sizes then s.update else s.update | INPUT_UPDATE_SIZE)
  {
    var t := Refresh(s);
    match StatOf(s.handles[s.filep].node)
    case None =>
    case Some(st) =>
      if s.sizes[s.filep] != st.size {
        assert t.sizes[s.filep] != s.sizes[s.filep];
      }
  }

  /** A second refresh of an unchanged file finds nothing to report. */
  lemma RefreshIdempotent(s: Stream)
    requires Shaped(s)
    ensures Refresh(Refresh(s)) == Refresh(s)
  {
  }

  lemma InvokeKeepsSum(s: Stream, len: nat)
    requires Consistent(s)
    ensures Consistent(Invoke(s, len).after)
  {
    var t := Transfer(s, len).after;
    assert Consistent(t);
    var s1 := t.(nbReads := (s.nbReads + 1) % UINT_RANGE);
    if s1.size != 0 && s1.nbReads % INPUT_FSTAT_NB_READS == 0 {
      RefreshKeepsSum(s1);
    }
  }

  /** Read keeps the size invariant (the refresh may have changed one size). */
  lemma {:induction false} ReadKeepsSum(s: Stream, len: nat)
    requires Consistent(s)
    ensures Consistent(Read(s, len).after)
    decreases |s.handles| - s.filep, 1
  {
    var i := Invoke(s, len);
    if i.ret == 0 && s.filep + 1 < |s.handles| {
      ReadKeepsSumSwitch(s, len);
    } else {
      InvokeKeepsSum(s, len);
      assert Read(s, len) == Finish(i);
    }
  }

  /** ReadKeepsSum at the end of a file that is not the last: the read() and the refresh keep the sum, and so does Read from the next file. */
  lemma {:induction false} ReadKeepsSumSwitch(s: Stream, len: nat)
    requires Consistent(s) && Invoke(s, len).ret == 0 && s.filep + 1 < |s.handles|
    ensures Consistent(Read(s, len).after)
    decreases |s.handles| - s.filep, 0
  {
    InvokeKeepsSum(s, len);
    var next := Invoke(s, len).after.(filep := s.filep + 1);
    assert Read(s, len) == Read(next, len);
    ReadKeepsSum(next, len);
  }

  /** The counter grows by one per entry into Read, counting each re-entry after a file switch. */
  lemma {:induction false} ReadCounter(s: Stream, len: nat)
    requires Shaped(s)
    ensures var o := Read(s, len);
      o.after.nbReads == (s.nbReads + (o.after.filep - s.filep) + 1) % UINT_RANGE
    decreases |s.handles| - s.filep, 1
  {
    var i := Invoke(s, len);
    if i.ret == 0 && s.filep + 1 < |s.handles| {
      ReadCounterSwitch(s, len);
    } else {
      assert Read(s, len) == Finish(i);
    }
  }

  /** ReadCounter at the end of a file that is not the last: one entry, then those of Read from the next file. */
  lemma {:induction false} ReadCounterSwitch(s: Stream, len: nat)
    requires Shaped(s) && Invoke(s, len).ret == 0 && s.filep + 1 < |s.handles|
    ensures var o := Read(s, len);
      o.after.nbReads == (s.nbReads + (o.after.filep - s.filep) + 1) % UINT_RANGE
    decreases |s.handles| - s.filep, 0
  {
    var next := Invoke(s, len).after.(filep := s.filep + 1);
    assert Read(s, len) == Read(next, len);
    ReadCounter(next, len);
    var o := Read(next, len);
    CounterStep(s.nbReads, next.nbReads, o.after.nbReads, o.after.filep - next.filep);
  }

  /** From `s` to `t`, only the recorded sizes of files `lo` to `hi` may have changed. */
  predicate SizesWithin(s: Stream, t: Stream, lo: nat, hi: nat)
  {
    |t.sizes| == |s.sizes| == |s.handles| &&
    forall j :: 0 <= j < |s.sizes| && (j < lo || hi < j) ==> t.sizes[j] == s.sizes[j]
  }

  /** Every recorded size that changed from `s` to `t` is the size fstat reports for that file. */
  predicate SizesFromStat(s: Stream, t: Stream)
    requires |t.sizes| == |s.sizes| == |s.handles|
  {
    forall j :: 0 <= j < |s.sizes| && t.sizes[j] != s.sizes[j] ==>
      !s.handles[j].node.statFails && t.sizes[j] == s.handles[j].node.statSize
  }

  /** INPUT_UPDATE_SIZE is raised from `s` to `t` exactly when some recorded size changed. */
  predicate UpdateFollows(s: Stream, t: Stream)
  {
    t.update == if t.sizes == s.sizes then s.update else s.update | INPUT_UPDATE_SIZE
  }

  /**
   * From `s` to `t`, only the recorded sizes of files `lo` to `hi` changed,
   * each to the size fstat reports for that file, and INPUT_UPDATE_SIZE was
   * raised exactly when one did.
   */
  predicate SizesRefreshed(s: Stream, t: Stream, lo: nat, hi: nat)
  {
    SizesWithin(s, t, lo, hi) && SizesFromStat(s, t) && UpdateFollows(s, t)
  }

  /** One entry into Read is the read(), which keeps the sizes, the update flags and the files, then the counter and the refresh. */
  lemma InvokeSteps(s: Stream, len: nat)
    requires Shaped(s)
    ensures var t := Transfer(s, len).after; var c := t.(nbReads := (s.nbReads + 1) % UINT_RANGE);
      t.sizes == s.sizes && t.update == s.update && |t.handles| == |s.handles| &&
      (forall j :: 0 <= j < |s.handles| ==> t.handles[j].node == s.handles[j].node) &&
      Invoke(s, len).after == if c.size != 0 && c.nbReads % INPUT_FSTAT_NB_READS == 0 then Refresh(c) else c
  {
  }

  /** One entry into Read refreshes at most the active file's size. */
  lemma InvokeRefreshes(s: Stream, len: nat)
    requires Shaped(s)
    ensures SizesRefreshed(s, Invoke(s, len).after, s.filep, s.filep)
  {
    InvokeSteps(s, len);
    var t := Transfer(s, len).after;
    var c := t.(nbReads := (s.nbReads + 1) % UINT_RANGE);
    if c.size != 0 && c.nbReads % INPUT_FSTAT_NB_READS == 0 {
      RefreshBookkeeping(c);
      RefreshFlags(c);
    }
  }

  /** Two sequences of the same length that differ, differ at some index. */
  lemma DiffersAt(a: seq<int>, b: seq<int>) returns (j: nat)
    requires |a| == |b| && a != b
    ensures j < |a| && a[j] != b[j]
  {
    j :| 0 <= j < |a| && a[j] != b[j];
  }

  /** A size changed over two spans over the same files is the size fstat reports. */
  lemma FromStatTrans(s: Stream, m: Stream, t: Stream)
    requires |m.sizes| == |s.sizes| == |s.handles| == |m.handles| && |t.sizes| == |s.sizes|
    requires SizesFromStat(s, m) && SizesFromStat(m, t)
    requires forall j :: 0 <= j < |s.handles| ==> m.handles[j].node == s.handles[j].node
    ensures SizesFromStat(s, t)
  {
    forall j | 0 <= j < |s.sizes| && t.sizes[j] != s.sizes[j]
      ensures !s.handles[j].node.statFails && t.sizes[j] == s.handles[j].node.statSize
    {
      assert m.handles[j].node == s.handles[j].node;
    }
  }

  /** The update flag over two spans over the same files follows the sizes. */
  lemma UpdateTrans(s: Stream, m: Stream, t: Stream)
    requires |m.sizes| == |s.sizes| == |s.handles| == |m.handles| && |t.sizes| == |s.sizes|
    requires SizesFromStat(s, m) && SizesFromStat(m, t) && UpdateFollows(s, m) && UpdateFollows(m, t)
    requires forall j :: 0 <= j < |s.handles| ==> m.handles[j].node == s.handles[j].node
    ensures UpdateFollows(s, t)
  {
    if m.sizes != s.sizes && t.sizes != m.sizes {
      var j := DiffersAt(m.sizes, s.sizes);
      assert m.handles[j].node == s.handles[j].node;
      assert t.sizes[j] != s.sizes[j];
      assert (s.update | INPUT_UPDATE_SIZE) | INPUT_UPDATE_SIZE == s.update | INPUT_UPDATE_SIZE;
    } else if m.sizes == s.sizes && t.sizes != m.sizes {
      assert t.sizes != s.sizes;
    } else if m.sizes != s.sizes {
      assert t.sizes != s.sizes;
    }
  }

  /** Two spans of refreshes, over files that stay the same, make one span. */
  lemma RefreshedTrans(s: Stream, m: Stream, t: Stream, lo: nat, a: nat, b: nat, hi: nat)
    requires SizesRefreshed(s, m, lo, a) && SizesRefreshed(m, t, b, hi) && lo <= b && a <= hi
    requires |m.handles| == |s.handles| && forall j :: 0 <= j < |s.handles| ==> m.handles[j].node == s.handles[j].node
    ensures SizesRefreshed(s, t, lo, hi)
  {
    FromStatTrans(s, m, t);
    UpdateTrans(s, m, t);
  }

  /**
   * Read refreshes only the sizes of the files it passed through, each to
   * the size fstat reports, and raises INPUT_UPDATE_SIZE only when a size
   * changed.
   */
  lemma {:induction false} ReadRefreshes(s: Stream, len: nat)
    requires Shaped(s)
    ensures SizesRefreshed(s, Read(s, len).after, s.filep, Read(s, len).after.filep)
    decreases |s.handles| - s.filep, 1
  {
    if Invoke(s, len).ret == 0 && s.filep + 1 < |s.handles| {
      ReadRefreshesSwitch(s, len);
    } else {
      ReadRefreshesStay(s, len);
    }
  }

  /** ReadRefreshes when Read stays in the active file: its one refresh, and the end of Read changes no size. */
  lemma ReadRefreshesStay(s: Stream, len: nat)
    requires Shaped(s) && !(Invoke(s, len).ret == 0 && s.filep + 1 < |s.handles|)
    ensures SizesRefreshed(s, Read(s, len).after, s.filep, Read(s, len).after.filep)
  {
    var i := Invoke(s, len);
    InvokeRefreshes(s, len);
    assert Read(s, len) == Finish(i);
    assert Finish(i).after.sizes == i.after.sizes && Finish(i).after.update == i.after.update;
  }

  /** ReadRefreshes at the end of a file that is not the last: the active file's refresh, then those of Read from the next file. */
  lemma {:induction false} ReadRefreshesSwitch(s: Stream, len: nat)
    requires Shaped(s) && Invoke(s, len).ret == 0 && s.filep + 1 < |s.handles|
    ensures SizesRefreshed(s, Read(s, len).after, s.filep, Read(s, len).after.filep)
    decreases |s.handles| - s.filep, 0
  {
    InvokeRefreshes(s, len);
    InvokeHandles(s, len);
    var next := Invoke(s, len).after.(filep := s.filep + 1);
    assert Read(s, len) == Read(next, len);
    ReadRefreshes(next, len);
    ReadData(next, len);
    RefreshedTrans(s, next, Read(next, len).after, s.filep, s.filep, s.filep + 1, Read(next, len).after.filep);
  }

  /**
   * Read's position and end of file: the position grows by exactly a
   * positive count and is otherwise unchanged; end of file is set exactly by
   * a zero count, which only the last file gives; the active file only moves
   * forward; the capability flags stay.
   */
  lemma {:induction false} ReadPosition(s: Stream, len: nat)
    requires Shaped(s)
    ensures var o := Read(s, len);
      s.filep <= o.after.filep &&
      (o.ret == 0 ==> o.after.filep == |s.handles| - 1) &&
      (o.ret > 0 ==> o.after.pos == s.pos + o.ret) &&
      (o.ret <= 0 ==> o.after.pos == s.pos) &&
      o.after.eof == (s.eof || o.ret == 0) &&
      o.after.seekable == s.seekable && o.after.paceControl == s.paceControl && o.after.kfir == s.kfir
    decreases |s.handles| - s.filep
  {
    var i := Invoke(s, len);
    if i.ret == 0 && s.filep + 1 < |s.handles| {
      var next := i.after.(filep := s.filep + 1);
      assert Read(s, len) == Read(next, len);
      ReadPosition(next, len);
    } else {
      assert Read(s, len) == Finish(i);
    }
  }

  /** Whether read() on `h` reports end of file. */
  predicate AtEnd(h: Handle, len: nat)
  {
    ReadAt(h.node, h.offset, len).ret == 0
  }

  /**
   * What Read delivers: the result of read() on the first file, from the
   * active one on, that does not report end of file (or on the last file);
   * every file skipped over reported end of file; only the descriptor that
   * delivered moves.
   */
  lemma {:induction false} ReadData(s: Stream, len: nat)
    requires Shaped(s)
    ensures var o := Read(s, len); var f := o.after.filep;
      s.filep <= f < |s.handles| &&
      (forall j :: s.filep <= j < f ==> AtEnd(s.handles[j], len)) &&
      (o.ret != 0 ==> f == s.filep || !AtEnd(s.handles[f], len)) &&
      ReadResult(o.ret, o.bytes) == ReadAt(s.handles[f].node, s.handles[f].offset, len) &&
      o.after.handles == s.handles[f := AdvanceHandle(s.handles[f], o.ret)]
    decreases |s.handles| - s.filep
  {
    var i := Invoke(s, len);
    if i.ret == 0 && s.filep + 1 < |s.handles| {
      var next := i.after.(filep := s.filep + 1);
      assert Read(s, len) == Read(next, len);
      ReadData(next, len);
      assert AdvanceHandle(s.handles[s.filep], 0) == s.handles[s.filep];
      assert next.handles == s.handles;
    } else {
      assert Read(s, len) == Finish(i);
    }
  }

  // ---------------------------------------------------------------------
  // Seek

  /** What Seek returns: the new state, and whether the translation loop finished without its assertion firing. */
  datatype SeekOutcome = SeekOutcome(after: Stream, completed: bool)

  /**
   * The offset Seek translates, as written: the request, except that a
   * previous position beyond the size, or below zero, is itself clamped and
   * replaces the request.
   */
  function SeekTarget(s: Stream, req: int): int
  {
    if s.size < s.pos then s.size else if s.pos < 0 then 0 else req
  }

  /** Move to logical offset `target`: set the position, clear end of file, translate, and lseek the file found. */
  function SeekTo(s: Stream, target: int): (o: SeekOutcome)
    requires Shaped(s)
    ensures Shaped(o.after) && |o.after.handles| == |s.handles|
    ensures o.after == s.(pos := target, eof := false, filep := o.after.filep, handles := o.after.handles)
  {
    var s1 := s.(pos := target, eof := false);
    match Locate(s.sizes, target)
    case None => SeekOutcome(s1, false)
    case Some(sp) =>
      SeekOutcome(s1.(filep := sp.index, handles := s.handles[sp.index := SeekHandle(s.handles[sp.index], sp.local)]), true)
  }

  /** Seek as written: it always clears end of file and leaves the sizes, the total, the update flags, the counter and the capability flags alone. */
  function Seek(s: Stream, req: int): (o: SeekOutcome)
    requires Shaped(s)
    ensures Shaped(o.after) && |o.after.handles| == |s.handles| && !o.after.eof
    ensures o.after.sizes == s.sizes && o.after.size == s.size && o.after.nbReads == s.nbReads && o.after.update == s.update
    ensures o.after.seekable == s.seekable && o.after.paceControl == s.paceControl && o.after.kfir == s.kfir
  {
    SeekTo(s, SeekTarget(s, req))
  }

  /**
   * Seeking to any offset between 0 and the size completes: the new active
   * file and the offset of its descriptor add up to the offset, that offset
   * is within the file's size, end of file is cleared, and the sizes are
   * untouched. Past the size, the translation runs off the last file, and
   * only the position and end of file change. A pipe or socket refuses the
   * lseek and its descriptor stays where it was. Nothing but the position,
   * end of file, the active file and the descriptors ever changes.
   */
  lemma SeekToCorrect(s: Stream, target: int)
    requires Consistent(s)
    ensures var o := SeekTo(s, target);
      Consistent(o.after) &&
      o.after.pos == target && !o.after.eof &&
      o.after.sizes == s.sizes && o.after.size == s.size &&
      (o.completed <==> target <= s.size) &&
      o.after == s.(pos := target, eof := false, filep := o.after.filep, handles := o.after.handles) &&
      (!o.completed ==> o.after == s.(pos := target, eof := false)) &&
      (o.completed && target >= 0 && !Unseekable(s.handles[o.after.filep].node.kind) ==>
        Sum(s.sizes[..o.after.filep]) + o.after.handles[o.after.filep].offset == target &&
        o.after.handles[o.after.filep].offset <= s.sizes[o.after.filep]) &&
      (Unseekable(s.handles[o.after.filep].node.kind) ==> o.after.handles == s.handles) &&
      (forall j :: 0 <= j < |s.handles| && j != o.after.filep ==> o.after.handles[j] == s.handles[j])
  {
    LocateCorrect(s.sizes, target);
  }

  /**
   * The clamp of Seek looks at the previous position only: from a position
   * inside the stream, every request is translated as it is, so a negative
   * request leaves a negative position, and a request past the size does not
   * complete.
   */
  lemma SeekTrustsRequest(s: Stream, req: int)
    requires Consistent(s) && 0 <= s.pos <= s.size
    ensures Seek(s, req).after.pos == req
    ensures Seek(s, req).completed <==> req <= s.size
  {
    SeekToCorrect(s, req);
  }

  /** A position left out of range is what gets clamped, whatever the request. */
  lemma SeekClampsPrevious(s: Stream, req: int)
    requires Consistent(s) && (s.pos < 0 || s.size < s.pos)
    ensures Seek(s, req).completed
    ensures Seek(s, req).after.pos == if s.pos < 0 then 0 else s.size
  {
    SumNonNegative(s.sizes);
    SeekToCorrect(s, SeekTarget(s, req));
  }

  /** The clamp evidently intended: the request itself, brought into [0, size]. */
  function Clamp(req: int, size: int): int
  {
    if req > size then size else if req < 0 then 0 else req
  }

  /** Seek with the request clamped. */
  function SeekClamped(s: Stream, req: int): SeekOutcome
    requires Shaped(s)
  {
    SeekTo(s, Clamp(req, s.size))
  }

  /**
   * Seeking with the request clamped always completes, at a position in
   * [0, size] that is the request whenever the request is in range, and the
   * active file and its descriptor's offset add up to that position, unless
   * that file is a pipe or socket, which cannot seek.
   */
  lemma SeekClampedCorrect(s: Stream, req: int)
    requires Consistent(s)
    ensures var o := SeekClamped(s, req);
      o.completed && Consistent(o.after) && !o.after.eof &&
      0 <= o.after.pos <= s.size &&
      (0 <= req <= s.size ==> o.after.pos == req) &&
      (req < 0 ==> o.after.pos == 0) && (req > s.size ==> o.after.pos == s.size) &&
      (!Unseekable(s.handles[o.after.filep].node.kind) ==>
        Sum(s.sizes[..o.after.filep]) + o.after.handles[o.after.filep].offset == o.after.pos &&
        o.after.handles[o.after.filep].offset <= s.sizes[o.after.filep])
  {
    SumNonNegative(s.sizes);
    SeekToCorrect(s, Clamp(req, s.size));
  }

  // ---------------------------------------------------------------------
  // Open

  /** The environment Open works in: the kernel's files and names, and the home directory. */
  datatype Env = Env(inodes: seq<Inode>, names: map<string, nat>, stdinIno: nat, home: string)

  predicate EnvValid(e: Env)
  {
    e.stdinIno < |e.inodes| && forall p :: p in e.names ==> e.names[p] < |e.inodes|
  }

  /** The access names Open tells apart, compared without regard to case. */
  datatype Mode = Plain | Streaming | Kfir

  function ModeOf(access: string): Mode
  {
    if SameIgnoringCase(access, "stream") then Streaming
    else if SameIgnoringCase(access, "kfir") then Kfir
    else Plain
  }

  /** The names of the files to open: the path, then each field of the non-empty list of extra files. */
  function FileNames(path: string, catlist: string): seq<string>
  {
    [path] + (if catlist == [] then [] else Fields(catlist))
  }

  /**
   * The file the name at index `j` opens: standard input when the path is
   * "-", otherwise the file the name, after `~/` expansion, refers to.
   */
  function Target(e: Env, j: nat, name: string): Option<Inode>
    requires EnvValid(e)
  {
    if j == 0 && name == "-" then Some(e.inodes[e.stdinIno])
    else
      var p := ExpandPath(e.home, name);
      if p in e.names then Some(e.inodes[e.names[p]]) else None
  }

  function Targets(e: Env, names: seq<string>): (ts: seq<Option<Inode>>)
    requires EnvValid(e)
    ensures |ts| == |names|
  {
    seq(|names|, j requires 0 <= j < |names| => Target(e, j, names[j]))
  }

  /** Open keeps a file that opened, answers fstat, and is not a directory. */
  predicate Usable(t: Option<Inode>)
  {
    t.Some? && !t.value.statFails && t.value.kind != Directory
  }

  /** The first file, from index `from` on, that Open cannot keep: every file before it is kept. */
  function FirstUnusable(ts: seq<Option<Inode>>, from: nat): (r: Option<nat>)
    requires from <= |ts|
    ensures r.None? <==> forall j :: from <= j < |ts| ==> Usable(ts[j])
    ensures r.Some? ==> from <= r.value < |ts| && !Usable(ts[r.value]) && forall j :: from <= j < r.value ==> Usable(ts[j])
    decreases |ts| - from
  {
    if from == |ts| then None
    else if !Usable(ts[from]) then Some(from)
    else FirstUnusable(ts, from + 1)
  }

  /** A file that cannot be kept, after files that all can, is the first one Open cannot keep. */
  lemma FirstUnusableAt(ts: seq<Option<Inode>>, i: nat)
    requires i < |ts| && !Usable(ts[i]) && forall j :: 0 <= j < i ==> Usable(ts[j])
    ensures FirstUnusable(ts, 0) == Some(i)
  {
    var r := FirstUnusable(ts, 0);
    assert r.Some? && r.value <= i;
  }

  /** What fstat may report of a file that leaves the concatenation seekable: regular, a block device, or a character device of non-zero size. */
  predicate SeekableKind(kind: FileKind, size: int)
  {
    kind == Regular || kind == BlockDevice || (kind == CharDevice && size != 0)
  }

  /** A file that leaves the concatenation seekable, by its kind and the size fstat reports. */
  predicate KeepsSeekable(node: Inode)
  {
    SeekableKind(node.kind, node.statSize)
  }

  /** The files behind the descriptors, once Open has kept them all. */
  function Kept(ts: seq<Option<Inode>>): (nodes: seq<Inode>)
    requires forall j :: 0 <= j < |ts| ==> Usable(ts[j])
    ensures |nodes| == |ts| && forall j :: 0 <= j < |ts| ==> ts[j] == Some(nodes[j])
  {
    var nodes := seq(|ts|, j requires 0 <= j < |ts| => assert Usable(ts[j]); ts[j].value);
    assert forall j :: 0 <= j < |ts| ==> Usable(ts[j]) && ts[j] == Some(nodes[j]);
    nodes
  }

  /** The stream Open builds from the files it kept, with the sizes fstat reported. */
  function Initial(nodes: seq<Inode>, mode: Mode): Stream
  {
    var sizes := seq(|nodes|, j requires 0 <= j < |nodes| => nodes[j].statSize);
    Stream(
      seq(|nodes|, j requires 0 <= j < |nodes| => Handle(nodes[j], 0)),
      sizes, 0, Sum(sizes), 0, false, 0, 0,
      mode == Plain && (forall j :: 0 <= j < |nodes| ==> KeepsSeekable(nodes[j])),
      mode == Plain, mode == Kfir)
  }

  /** What Open gives: a stream, the index of the first file it could not keep, or the refusal of an empty seekable stream. */
  datatype OpenResult = Opened(stream: Stream) | Unusable(index: nat) | Empty

  /** Open as written: a stream it gives has one file per name, consistent sizes, and starts at offset 0 of the first file. */
  function Open(e: Env, access: string, path: string, catlist: string): (r: OpenResult)
    requires EnvValid(e)
    ensures r.Opened? ==> Consistent(r.stream) && |r.stream.handles| == |FileNames(path, catlist)| &&
                          r.stream.filep == 0 && r.stream.pos == 0 && !r.stream.eof
    ensures r.Unusable? ==> r.index < |FileNames(path, catlist)|
  {
    var ts := Targets(e, FileNames(path, catlist));
    match FirstUnusable(ts, 0)
    case Some(k) => Unusable(k)
    case None =>
      var s := Initial(Kept(ts), ModeOf(access));
      if s.seekable && s.size == 0 then Empty else Opened(s)
  }

  /**
   * The files Open works through: the path first, then, for a non-empty
   * list, one per comma-separated field, which joined back with commas give
   * the list; so 1 file, or 2 plus the number of commas.
   */
  lemma FileNamesShape(path: string, catlist: string)
    ensures var names := FileNames(path, catlist);
      names[0] == path &&
      |names| == (if catlist == [] then 1 else 2 + Commas(catlist)) &&
      (catlist != [] ==> Join(names[1..]) == catlist) &&
      forall j :: 1 <= j < |names| ==> ',' !in names[j]
  {
    if catlist != [] {
      FieldsShape(catlist, 0);
      JoinFields(catlist, 0);
      assert catlist[0..] == catlist;
      assert FileNames(path, catlist)[1..] == Fields(catlist);
    }
  }

  /**
   * Open refuses exactly at the first file it cannot keep: one that did not
   * open, whose fstat failed, or that is a directory; every file before it
   * was kept.
   */
  lemma OpenRefusal(e: Env, access: string, path: string, catlist: string)
    requires EnvValid(e)
    ensures var ts := Targets(e, FileNames(path, catlist)); var r := Open(e, access, path, catlist);
      (r.Unusable? <==> exists j :: 0 <= j < |ts| && !Usable(ts[j])) &&
      (r.Unusable? ==> r.index < |ts| && !Usable(ts[r.index]) && forall j :: 0 <= j < r.index ==> Usable(ts[j]))
  {
  }

  /**
   * A stream Open gives is at the start of its first file, with every
   * descriptor at offset 0 on the file its name refers to, the sizes those
   * files have, a total that is their sum, no update flag and no reads yet;
   * it is never both seekable and empty.
   */
  lemma OpenedStream(e: Env, access: string, path: string, catlist: string)
    requires EnvValid(e)
    ensures var ts := Targets(e, FileNames(path, catlist)); var r := Open(e, access, path, catlist);
      r.Opened? ==>
        var s := r.stream;
        Consistent(s) && |s.handles| == |ts| &&
        s.filep == 0 && s.pos == 0 && !s.eof && s.update == 0 && s.nbReads == 0 &&
        (forall j :: 0 <= j < |ts| ==> ts[j] == Some(s.handles[j].node) && s.handles[j].offset == 0 &&
                                       s.sizes[j] == s.handles[j].node.statSize) &&
        !(s.seekable && s.size == 0)
  {
    var ts := Targets(e, FileNames(path, catlist));
    if FirstUnusable(ts, 0).None? {
      SumNonNegative(Initial(Kept(ts), ModeOf(access)).sizes);
    }
  }

  /**
   * The capabilities Open gives: "stream" and "kfir" (in any case) turn off
   * seeking and pace control, "kfir" also selects the kfir read loop; any
   * other access name is seekable unless one file is neither regular, nor a
   * block device, nor a non-empty character device.
   */
  lemma OpenedFlags(e: Env, access: string, path: string, catlist: string)
    requires EnvValid(e)
    ensures var r := Open(e, access, path, catlist);
      r.Opened? ==>
        var s := r.stream;
        (s.paceControl <==> !SameIgnoringCase(access, "stream") && !SameIgnoringCase(access, "kfir")) &&
        (s.kfir <==> !SameIgnoringCase(access, "stream") && SameIgnoringCase(access, "kfir")) &&
        (s.seekable <==> s.paceControl && forall j :: 0 <= j < |s.handles| ==> KeepsSeekable(s.handles[j].node))
  {
    var ts := Targets(e, FileNames(path, catlist));
    if FirstUnusable(ts, 0).None? {
      var nodes := Kept(ts);
      var s := Initial(nodes, ModeOf(access));
      assert forall j :: 0 <= j < |nodes| ==> s.handles[j].node == nodes[j];
    }
  }

  /** Open gives the empty-stream refusal exactly when every file was kept, the stream is seekable and all files are empty. */
  lemma OpenEmpty(e: Env, access: string, path: string, catlist: string)
    requires EnvValid(e)
    ensures var ts := Targets(e, FileNames(path, catlist));
      Open(e, access, path, catlist).Empty? <==>
        (forall j :: 0 <= j < |ts| ==> Usable(ts[j]) && ts[j].value.statSize == 0) &&
        ModeOf(access) == Plain && (forall j :: 0 <= j < |ts| ==> KeepsSeekable(ts[j].value))
  {
    var ts := Targets(e, FileNames(path, catlist));
    if FirstUnusable(ts, 0).None? {
      var nodes := Kept(ts);
      var s := Initial(nodes, ModeOf(access));
      SumZero(s.sizes);
      assert forall j :: 0 <= j < |nodes| ==> s.sizes[j] == ts[j].value.statSize;
    }
  }

  // ---------------------------------------------------------------------
  // Reading across a file boundary

  /** The bytes of the concatenation: the contents of the files, in order. */
  function Contents(hs: seq<Handle>): seq<byte>
  {
    if hs == [] then [] else Contents(hs[..|hs| - 1]) + hs[|hs| - 1].node.data
  }

  /**
   * The stream follows its files: each recorded size is the number of bytes
   * the file holds and the size fstat reports, no read fails, a pipe or
   * socket not yet reached is still at its start, and the position is where
   * the active descriptor stands in the concatenation.
   */
  predicate InSync(s: Stream)
  {
    Consistent(s) &&
    (forall j :: 0 <= j < |s.handles| ==>
       s.sizes[j] == |s.handles[j].node.data| == s.handles[j].node.statSize && !s.handles[j].node.readFails) &&
    (forall j :: s.filep < j < |s.handles| && Unseekable(s.handles[j].node.kind) ==> s.handles[j].offset == 0) &&
    s.handles[s.filep].offset <= s.sizes[s.filep] &&
    s.pos == Sum(s.sizes[..s.filep]) + s.handles[s.filep].offset
  }

  /**
   * Read with the switch to the next file rewinding that file's descriptor
   * to its start before reading from it.
   */
  function ReadRewinding(s: Stream, len: nat): (o: ReadOutcome)
    requires Shaped(s)
    ensures Shaped(o.after) && |o.after.handles| == |s.handles|
    decreases |s.handles| - s.filep
  {
    var o := Invoke(s, len);
    if o.ret == 0 && s.filep + 1 < |s.handles| then
      var j := s.filep + 1;
      ReadRewinding(o.after.(filep := j, handles := o.after.handles[j := SeekHandle(o.after.handles[j], 0)]), len)
    else Finish(o)
  }

  lemma {:induction false} ContentsSplit(hs: seq<Handle>, k: nat)
    requires k <= |hs|
    ensures Contents(hs) == Contents(hs[..k]) + Contents(hs[k..])
    decreases |hs|
  {
    if k < |hs| {
      var n := |hs| - 1;
      ContentsSplit(hs[..n], k);
      assert hs[..n][..k] == hs[..k];
      assert hs[k..][..|hs[k..]| - 1] == hs[..n][k..];
    } else {
      assert hs[..k] == hs;
    }
  }

  lemma {:induction false} ContentsLength(hs: seq<Handle>, sizes: seq<int>)
    requires |hs| == |sizes| && forall j :: 0 <= j < |hs| ==> sizes[j] == |hs[j].node.data|
    ensures |Contents(hs)| == Sum(sizes)
    decreases |hs|
  {
    if hs != [] {
      var n := |hs| - 1;
      ContentsLength(hs[..n], sizes[..n]);
    }
  }

  /** The concatenation depends on the files only, not on where the descriptors stand. */
  lemma {:induction false} ContentsOfNodes(hs: seq<Handle>, gs: seq<Handle>)
    requires |hs| == |gs| && forall j :: 0 <= j < |hs| ==> hs[j].node == gs[j].node
    ensures Contents(hs) == Contents(gs)
    decreases |hs|
  {
    if hs != [] {
      var n := |hs| - 1;
      ContentsOfNodes(hs[..n], gs[..n]);
    }
  }

  /** A slice of the middle part of a concatenation. */
  lemma SliceMiddle(x: seq<byte>, y: seq<byte>, z: seq<byte>, a: nat, b: nat)
    requires a <= b <= |y|
    ensures (x + (y + z))[|x| + a..|x| + b] == y[a..b]
  {
    assert (x + (y + z))[|x|..] == y + z;
  }

  /** The concatenation is the files before `f`, then file `f`, then the files after it. */
  lemma ContentsAt(hs: seq<Handle>, f: nat)
    requires f < |hs|
    ensures Contents(hs) == Contents(hs[..f]) + (hs[f].node.data + Contents(hs[f + 1..]))
  {
    ContentsSplit(hs, f);
    ContentsSplit(hs[f..], 1);
    assert hs[f..][..1] == [hs[f]];
    assert hs[f..][1..] == hs[f + 1..];
    assert Contents([hs[f]]) == hs[f].node.data by {
      assert [hs[f]][..0] == [];
    }
  }

  /** Bytes `a` to `b` of file `f` are bytes `a` to `b` past the end of the files before it. */
  lemma ContentsSlice(hs: seq<Handle>, sizes: seq<int>, f: nat, a: nat, b: nat)
    requires |hs| == |sizes| && forall j :: 0 <= j < |hs| ==> sizes[j] == |hs[j].node.data|
    requires f < |hs| && a <= b <= sizes[f]
    ensures 0 <= Sum(sizes[..f]) && Sum(sizes[..f]) + b <= |Contents(hs)|
    ensures Contents(hs)[Sum(sizes[..f]) + a..Sum(sizes[..f]) + b] == hs[f].node.data[a..b]
  {
    ContentsAt(hs, f);
    ContentsLength(hs[..f], sizes[..f]);
    SliceMiddle(Contents(hs[..f]), hs[f].node.data, Contents(hs[f + 1..]), a, b);
  }

  /** While the stream follows its files, the refresh finds nothing to change. */
  lemma RefreshInSync(s: Stream)
    requires Shaped(s) && s.sizes[s.filep] == s.handles[s.filep].node.statSize
    ensures Refresh(s) == s
  {
  }

  /** One read() on a stream that follows its files: the bytes at the active descriptor, and nothing else changes but that descriptor and the counter. */
  lemma InvokeInSync(s: Stream, len: nat)
    requires InSync(s) && len > 0
    ensures var i := Invoke(s, len); var h := s.handles[s.filep];
      i.ret >= 0 && (i.ret == 0 <==> h.offset == s.sizes[s.filep]) &&
      h.offset + i.ret <= s.sizes[s.filep] && i.ret == |i.bytes| <= len &&
      i.bytes == h.node.data[h.offset..h.offset + i.ret] &&
      i.after == s.(handles := s.handles[s.filep := AdvanceHandle(h, i.ret)], nbReads := i.after.nbReads)
  {
    RefreshInSync(Transfer(s, len).after.(nbReads := (s.nbReads + 1) % UINT_RANGE));
  }

  /**
   * `o` continues the concatenation of `s`: the stream still follows the
   * same files, the bytes returned are those of the concatenation from the
   * old position to the new one, and the count is zero exactly at the end
   * of the stream, where end of file is raised.
   */
  predicate Contiguous(s: Stream, o: ReadOutcome, len: nat)
  {
    InSync(o.after) && Contents(o.after.handles) == Contents(s.handles) &&
    o.after.size == s.size && |Contents(s.handles)| == s.size &&
    0 <= s.pos <= o.after.pos <= s.size &&
    o.ret == o.after.pos - s.pos <= len &&
    o.bytes == Contents(s.handles)[s.pos..o.after.pos] &&
    (o.ret == 0 <==> s.pos == s.size) &&
    (o.ret == 0 ==> o.after.eof)
  }

  /** The descriptors after a read on a stream that follows its files still refer to the same files, and the position moved with the active one. */
  lemma AdvanceKeepsNodes(s: Stream, len: nat)
    requires InSync(s) && len > 0
    ensures var i := Invoke(s, len);
      InSync(i.after.(pos := s.pos + i.ret)) && Contents(i.after.handles) == Contents(s.handles)
  {
    var f := s.filep;
    SumPrefixStep(s.sizes, f);
    InvokeInSync(s, len);
    var i := Invoke(s, len);
    assert forall j :: 0 <= j < |s.handles| ==> i.after.handles[j].node == s.handles[j].node;
    ContentsOfNodes(i.after.handles, s.handles);
  }

  /**
   * Bytes `off` to `off + ret` of file `f` sit at `pos`, the offset `off`
   * of file `f` in the concatenation, and `pos` reaches the total only at
   * the end of file `f`.
   */
  lemma PlacedBytes(hs: seq<Handle>, sizes: seq<int>, f: nat, off: nat, ret: nat, pos: int)
    requires |hs| == |sizes| && forall j :: 0 <= j < |hs| ==> sizes[j] == |hs[j].node.data|
    requires f < |hs| && off + ret <= sizes[f] && pos == Sum(sizes[..f]) + off
    ensures |Contents(hs)| == Sum(sizes) && 0 <= pos && pos + ret <= Sum(sizes)
    ensures pos == Sum(sizes) ==> off == sizes[f]
    ensures Contents(hs)[pos..pos + ret] == hs[f].node.data[off..off + ret]
  {
    assert NonNegative(sizes);
    ContentsLength(hs, sizes);
    SumPrefixStep(sizes, f);
    SumPrefixMonotone(sizes, f + 1, |sizes|);
    assert sizes[..|sizes|] == sizes;
    ContentsSlice(hs, sizes, f, off, off + ret);
  }

  /** The bytes one read() delivers are those of the concatenation from the position on. */
  lemma DeliveredBytes(s: Stream, len: nat)
    requires InSync(s) && len > 0
    ensures var i := Invoke(s, len);
      |Contents(s.handles)| == s.size && 0 <= s.pos && s.pos + i.ret <= s.size &&
      (i.ret == 0 <==> s.pos == s.size || s.handles[s.filep].offset == s.sizes[s.filep]) &&
      i.bytes == Contents(s.handles)[s.pos..s.pos + i.ret]
  {
    InvokeInSync(s, len);
    PlacedBytes(s.handles, s.sizes, s.filep, s.handles[s.filep].offset, Invoke(s, len).ret, s.pos);
  }

  /** A read that delivers bytes continues the concatenation. */
  lemma DeliverInSync(s: Stream, len: nat)
    requires InSync(s) && len > 0 && Invoke(s, len).ret > 0
    ensures Contiguous(s, Finish(Invoke(s, len)), len)
  {
    InvokeInSync(s, len);
    AdvanceKeepsNodes(s, len);
    DeliveredBytes(s, len);
  }

  /** End of file on the last file is the end of the stream. */
  lemma EndInSync(s: Stream, len: nat)
    requires InSync(s) && len > 0 && Invoke(s, len).ret == 0 && s.filep + 1 == |s.handles|
    ensures Contiguous(s, Finish(Invoke(s, len)), len)
  {
    var f := s.filep;
    ContentsLength(s.handles, s.sizes);
    SumPrefixStep(s.sizes, f);
    assert s.sizes[..f + 1] == s.sizes;
    InvokeInSync(s, len);
    AdvanceKeepsNodes(s, len);
  }

  /** At the end of a file that is not the last, rewinding the next one keeps the stream following its files, at the same position. */
  lemma SwitchInSync(s: Stream, len: nat)
    requires InSync(s) && len > 0
    requires var i := Invoke(s, len); i.ret == 0 && s.filep + 1 < |s.handles|
    ensures var i := Invoke(s, len); var j := s.filep + 1;
      var next := i.after.(filep := j, handles := i.after.handles[j := SeekHandle(i.after.handles[j], 0)]);
      InSync(next) && next.pos == s.pos && next.size == s.size && Contents(next.handles) == Contents(s.handles)
  {
    var f := s.filep;
    SumPrefixStep(s.sizes, f);
    InvokeInSync(s, len);
    var i := Invoke(s, len);
    var next := i.after.(filep := f + 1, handles := i.after.handles[f + 1 := SeekHandle(i.after.handles[f + 1], 0)]);
    assert forall j :: 0 <= j < |s.handles| ==> next.handles[j].node == s.handles[j].node;
    ContentsOfNodes(next.handles, s.handles);
  }

  /**
   * Reading with the rewinding switch delivers the concatenation without a
   * gap, from any state that follows its files.
   */
  lemma {:induction false} RewindingReadIsContiguous(s: Stream, len: nat)
    requires InSync(s) && len > 0
    ensures Contiguous(s, ReadRewinding(s, len), len)
    decreases |s.handles| - s.filep
  {
    var i := Invoke(s, len);
    if i.ret == 0 && s.filep + 1 < |s.handles| {
      var j := s.filep + 1;
      var next := i.after.(filep := j, handles := i.after.handles[j := SeekHandle(i.after.handles[j], 0)]);
      assert ReadRewinding(s, len) == ReadRewinding(next, len);
      SwitchInSync(s, len);
      RewindingReadIsContiguous(next, len);
    } else {
      assert ReadRewinding(s, len) == Finish(i);
      InvokeInSync(s, len);
      if i.ret > 0 {
        DeliverInSync(s, len);
      } else {
        EndInSync(s, len);
      }
    }
  }

  /** Every file after the active one is still at its start, as Open leaves them. */
  predicate AheadRewound(s: Stream)
  {
    forall j :: s.filep < j < |s.handles| ==> s.handles[j].offset == 0
  }

  /** One read() moves the active descriptor only. */
  lemma InvokeHandles(s: Stream, len: nat)
    requires Shaped(s)
    ensures var i := Invoke(s, len);
      i.after.handles == s.handles[s.filep := AdvanceHandle(s.handles[s.filep], i.ret)]
  {
  }

  /**
   * While the files ahead of the active one are at their start, Read as
   * written is the rewinding Read: the lseek to 0 at a switch finds the
   * descriptor already there.
   */
  lemma {:induction false} ReadIsRewinding(s: Stream, len: nat)
    requires Shaped(s) && AheadRewound(s)
    ensures Read(s, len) == ReadRewinding(s, len)
    decreases |s.handles| - s.filep, 1
  {
    var i := Invoke(s, len);
    if i.ret == 0 && s.filep + 1 < |s.handles| {
      ReadIsRewindingSwitch(s, len);
    } else {
      assert Read(s, len) == Finish(i);
      assert ReadRewinding(s, len) == Finish(i);
    }
  }

  /** ReadIsRewinding at the end of a file that is not the last: rewinding the next file, already at 0, changes nothing. */
  lemma {:induction false} ReadIsRewindingSwitch(s: Stream, len: nat)
    requires Shaped(s) && AheadRewound(s) && Invoke(s, len).ret == 0 && s.filep + 1 < |s.handles|
    ensures Read(s, len) == ReadRewinding(s, len)
    decreases |s.handles| - s.filep, 0
  {
    var i := Invoke(s, len);
    InvokeHandles(s, len);
    var j := s.filep + 1;
    var next := i.after.(filep := j);
    assert SeekHandle(i.after.handles[j], 0) == i.after.handles[j];
    assert i.after.handles[j := SeekHandle(i.after.handles[j], 0)] == i.after.handles;
    assert Read(s, len) == Read(next, len);
    assert ReadRewinding(s, len) == ReadRewinding(next, len);
    ReadIsRewinding(next, len);
  }

  /** Read as written keeps the files ahead of the active one at their start. */
  lemma {:induction false} ReadKeepsRewound(s: Stream, len: nat)
    requires Shaped(s) && AheadRewound(s)
    ensures AheadRewound(Read(s, len).after)
    decreases |s.handles| - s.filep, 1
  {
    var i := Invoke(s, len);
    if i.ret == 0 && s.filep + 1 < |s.handles| {
      ReadKeepsRewoundSwitch(s, len);
    } else {
      InvokeHandles(s, len);
      assert Read(s, len) == Finish(i);
    }
  }

  /** ReadKeepsRewound at the end of a file that is not the last: the files after the next one are still at their start. */
  lemma {:induction false} ReadKeepsRewoundSwitch(s: Stream, len: nat)
    requires Shaped(s) && AheadRewound(s) && Invoke(s, len).ret == 0 && s.filep + 1 < |s.handles|
    ensures AheadRewound(Read(s, len).after)
    decreases |s.handles| - s.filep, 0
  {
    InvokeHandles(s, len);
    var next := Invoke(s, len).after.(filep := s.filep + 1);
    assert Read(s, len) == Read(next, len);
    ReadKeepsRewound(next, len);
  }

  /**
   * A stream Open gives follows its files, with every file ahead at its
   * start, whenever each file holds as many bytes as fstat reports and
   * none fails to read.
   */
  lemma OpenedInSync(e: Env, access: string, path: string, catlist: string)
    requires EnvValid(e)
    ensures var r := Open(e, access, path, catlist);
      r.Opened? &&
      (forall j :: 0 <= j < |r.stream.handles| ==>
         r.stream.handles[j].node.statSize == |r.stream.handles[j].node.data| && !r.stream.handles[j].node.readFails)
      ==> InSync(r.stream) && AheadRewound(r.stream)
  {
    OpenedStream(e, access, path, catlist);
  }

  /**
   * Read as written delivers the concatenation without a gap from any
   * state that follows its files while the files ahead are at their start;
   * in particular from the stream Open gives, read after read.
   */
  lemma ReadIsContiguous(s: Stream, len: nat)
    requires InSync(s) && AheadRewound(s) && len > 0
    ensures Contiguous(s, Read(s, len), len) && AheadRewound(Read(s, len).after)
  {
    ReadIsRewinding(s, len);
    RewindingReadIsContiguous(s, len);
    ReadKeepsRewound(s, len);
  }

  /**
   * A read of length 0 returns 0 from every file, so Read as written takes
   * each one in turn as ended: it makes the last file active and raises end
   * of file, while the position stays where it was.
   */
  lemma ZeroLengthReadEndsStream(s: Stream)
    requires Shaped(s) && forall j :: s.filep <= j < |s.handles| ==> !s.handles[j].node.readFails
    ensures var o := Read(s, 0);
      o.ret == 0 && o.bytes == [] && o.after.filep == |s.handles| - 1 && o.after.eof && o.after.pos == s.pos
  {
    ReadData(s, 0);
    ReadPosition(s, 0);
  }

  /** The files "AAA" and "BBB", opened as a plain concatenation. */
  function TwoFiles(): Stream
  {
    Initial([Inode(Regular, [65, 65, 65], 3, false, false), Inode(Regular, [66, 66, 66], 3, false, false)], Plain)
  }

  /** The stream over "AAA" and "BBB" with its descriptors at `offA` and `offB`. */
  function Pair(offA: nat, offB: nat, filep: nat, pos: int, eof: bool, nbReads: nat): Stream
  {
    Stream([Handle(Inode(Regular, [65, 65, 65], 3, false, false), offA), Handle(Inode(Regular, [66, 66, 66], 3, false, false), offB)],
           [3, 3], filep, 6, pos, eof, 0, nbReads, true, true, false)
  }

  lemma PairOpened()
    ensures TwoFiles() == Pair(0, 0, 0, 0, false, 0)
  {
    var s := TwoFiles();
    var p := Pair(0, 0, 0, 0, false, 0);
    assert s.sizes == p.sizes;
    assert s.handles == p.handles;
    assert Sum([3, 3][..1]) == 3;
  }

  lemma PairReadFirst()
    ensures Read(Pair(0, 0, 0, 0, false, 0), 3) == ReadOutcome(Pair(3, 0, 0, 3, false, 1), 3, [65, 65, 65])
  {
  }

  lemma PairEndOfFirst(offB: nat, pos: int, nbReads: nat)
    requires nbReads < 9
    ensures Invoke(Pair(3, offB, 0, pos, false, nbReads), 3) == ReadOutcome(Pair(3, offB, 0, pos, false, nbReads + 1), 0, [])
  {
  }

  lemma PairReadSecond(pos: int, nbReads: nat)
    requires nbReads < 9
    ensures Read(Pair(3, 0, 1, pos, false, nbReads), 3) == ReadOutcome(Pair(3, 3, 1, pos + 3, false, nbReads + 1), 3, [66, 66, 66])
    ensures ReadRewinding(Pair(3, 0, 1, pos, false, nbReads), 3) == ReadOutcome(Pair(3, 3, 1, pos + 3, false, nbReads + 1), 3, [66, 66, 66])
  {
    var i := Invoke(Pair(3, 0, 1, pos, false, nbReads), 3);
    assert i == ReadOutcome(Pair(3, 3, 1, pos, false, nbReads + 1), 3, [66, 66, 66]);
    assert Read(Pair(3, 0, 1, pos, false, nbReads), 3) == Finish(i);
    assert ReadRewinding(Pair(3, 0, 1, pos, false, nbReads), 3) == Finish(i);
  }

  lemma PairEndOfSecond(pos: int, nbReads: nat)
    requires nbReads < 9
    ensures Read(Pair(3, 3, 1, pos, false, nbReads), 3) == ReadOutcome(Pair(3, 3, 1, pos, true, nbReads + 1), 0, [])
  {
    var i := Invoke(Pair(3, 3, 1, pos, false, nbReads), 3);
    assert i == ReadOutcome(Pair(3, 3, 1, pos, false, nbReads + 1), 0, []);
    assert Read(Pair(3, 3, 1, pos, false, nbReads), 3) == Finish(i);
  }

  lemma PairReadAcross()
    ensures Read(Pair(3, 0, 0, 3, false, 1), 3) == ReadOutcome(Pair(3, 3, 1, 6, false, 3), 3, [66, 66, 66])
  {
    PairEndOfFirst(0, 3, 1);
    assert Read(Pair(3, 0, 0, 3, false, 1), 3) == Read(Pair(3, 0, 1, 3, false, 2), 3);
    PairReadSecond(3, 2);
  }

  lemma PairReadEnd()
    ensures Read(Pair(3, 3, 1, 6, false, 3), 3) == ReadOutcome(Pair(3, 3, 1, 6, true, 4), 0, [])
  {
    PairEndOfSecond(6, 3);
  }

  lemma PairSeekStart()
    ensures Seek(Pair(3, 3, 1, 6, true, 4), 0) == SeekOutcome(Pair(0, 3, 0, 0, false, 4), true)
  {
    assert Locate([3, 3], 0) == Some(Spot(0, 0));
  }

  lemma PairReadAgain()
    ensures Read(Pair(0, 3, 0, 0, false, 4), 3) == ReadOutcome(Pair(3, 3, 0, 3, false, 5), 3, [65, 65, 65])
  {
  }

  lemma PairReadStale()
    ensures Read(Pair(3, 3, 0, 3, false, 5), 3) == ReadOutcome(Pair(3, 3, 1, 3, true, 7), 0, [])
  {
    PairEndOfFirst(3, 3, 5);
    assert Read(Pair(3, 3, 0, 3, false, 5), 3) == Read(Pair(3, 3, 1, 3, false, 6), 3);
    PairEndOfSecond(3, 6);
  }

  /** A read of length 0 at the start of "AAA" makes "BBB" active with end of file raised, at position 0. */
  lemma PairZeroLengthRead()
    ensures Read(Pair(0, 0, 0, 0, false, 0), 0) == ReadOutcome(Pair(0, 0, 1, 0, true, 2), 0, [])
  {
    var i := Invoke(Pair(0, 0, 0, 0, false, 0), 0);
    assert i == ReadOutcome(Pair(0, 0, 0, 0, false, 1), 0, []);
    assert Read(Pair(0, 0, 0, 0, false, 0), 0) == Read(Pair(0, 0, 1, 0, false, 1), 0);
    var k := Invoke(Pair(0, 0, 1, 0, false, 1), 0);
    assert k == ReadOutcome(Pair(0, 0, 1, 0, false, 2), 0, []);
    assert Read(Pair(0, 0, 1, 0, false, 1), 0) == Finish(k);
  }

  /** After that, the next read gives "BBB" for position 0, where the concatenation holds "AAA". */
  lemma PairReadAfterZeroLength()
    ensures Read(Pair(0, 0, 1, 0, true, 2), 3) == ReadOutcome(Pair(0, 3, 1, 3, true, 3), 3, [66, 66, 66])
  {
    var i := Invoke(Pair(0, 0, 1, 0, true, 2), 3);
    assert i == ReadOutcome(Pair(0, 3, 1, 0, true, 3), 3, [66, 66, 66]);
    assert Read(Pair(0, 0, 1, 0, true, 2), 3) == Finish(i);
  }

  lemma PairReadRewound()
    ensures ReadRewinding(Pair(3, 3, 0, 3, false, 5), 3) == ReadOutcome(Pair(3, 3, 1, 6, false, 7), 3, [66, 66, 66])
  {
    PairEndOfFirst(3, 3, 5);
    assert SeekHandle(Pair(3, 3, 0, 3, false, 6).handles[1], 0) == Pair(3, 0, 1, 3, false, 6).handles[1];
    assert ReadRewinding(Pair(3, 3, 0, 3, false, 5), 3) == ReadRewinding(Pair(3, 0, 1, 3, false, 6), 3);
    PairReadSecond(3, 6);
  }

  lemma PairStaleGap()
    ensures InSync(Pair(3, 3, 0, 3, false, 5))
    ensures !Contiguous(Pair(3, 3, 0, 3, false, 5), ReadOutcome(Pair(3, 3, 1, 3, true, 7), 0, []), 3)
  {
    assert Sum([3, 3][..0]) == 0;
  }

  lemma PairContents()
    ensures Contents(Pair(0, 0, 0, 0, false, 0).handles) == [65, 65, 65] + [66, 66, 66]
  {
    assert Pair(0, 0, 0, 0, false, 0).handles[..1][..0] == [];
  }

  /**
   * Read as written does not continue the concatenation once a seek has
   * moved back across a file boundary: after reading "AAA" and "BBB" to the
   * end and seeking to 0, "AAA" comes again, and then end of file at
   * position 3 of 6, because the descriptor of "BBB" still stands at its end.
   * The rewinding read delivers "BBB" from the same state.
   */
  lemma StaleOffsetEndsStreamEarly()
    ensures var r1 := Read(TwoFiles(), 3); var r2 := Read(r1.after, 3); var r3 := Read(r2.after, 3);
      var sk := Seek(r3.after, 0); var r4 := Read(sk.after, 3); var r5 := Read(r4.after, 3);
      r1.bytes + r2.bytes == Contents(TwoFiles().handles) && r3.ret == 0 && r3.after.eof &&
      sk.completed && r4.bytes == r1.bytes && InSync(r4.after) &&
      r5.ret == 0 && r5.after.eof && r5.after.pos == 3 && r5.after.size == 6 &&
      !Contiguous(r4.after, r5, 3) &&
      ReadRewinding(r4.after, 3).bytes == r2.bytes
  {
    PairOpened();
    PairReadFirst();
    PairReadAcross();
    PairReadEnd();
    PairSeekStart();
    PairReadAgain();
    PairReadStale();
    PairReadRewound();
    PairStaleGap();
    PairContents();
  }
}
